=== FILE: README.md ===
# CO2 and device analytics: a Dafny model

This project models the sequential logic of a device-monitoring and CO2-reporting application.
The backend is FastAPI with a Celery worker. The frontend is React.

The backend analytics kernels:

- **Door openings** (`DoorOpenings`). A door reading is read from each record's `extras` text. The readings are cut into maximal runs of positive values, and each run becomes one numbered opening. The day's total and average are computed from the openings.
- **Multi-device status lookup** (`DeviceStatus`). Identifiers are de-duplicated in order of first occurrence. The `case` sort key orders the registered devices. Every result row is numbered `No = i + 1` by position, and the days offline are computed with Python's flooring `.days`. Because `.days` floors, a device whose last log was one second ago shows one day offline.
- **Tiered emission formulas** (`Emissions`, `AnnualReport`). One three-tier, piecewise-linear function covers both schedules: the annual report (breakpoints 55 and 250) and the daily one (breakpoints 0.1505817 and 0.684462). Each schedule is proved continuous at its breakpoints, monotone, and equal to a marginal-rate reference definition.
- **Monthly CO2 task** (`MonthlyTask`), covering:
  - the unique id `CCO2A{client}A{serial}A{year}A{month}A{day}`, proved to parse back;
  - the energy integration over reading gaps of at most half an hour;
  - the skip-if-logged loop over devices and days 1..31;
  - `days_processed`;
  - idempotence: re-running with the updated logged ids inserts nothing.

The frontend, modelled as state machines driven by explicit event traces:

- **`useTaskGroupPolling`** (`TaskGroupPolling`). The first query waits for the first 5000 ms tick. Every answer is reported. COMPLETE or a failure stops the interval that sent the request. Cleanup stops the current interval.
- **`useResultsPolling`** (`ResultsPolling`). The hook fetches once at once and then every 7000 ms. An `isCancelled` flag per session drops late results. Failures are skipped.
- **`useMockFetch`** (`MockFetch`): loading, data and error.
- **`CO2StatsPage`** (`CO2StatsPage`): the Client ID, year and month inputs, the submit guard, `group_id || null` feeding the task-group poller, the results query feeding the results poller, the monthly total and the progress-bar width.
- **`DeviceAnalyticsPage`** (`DeviceAnalyticsPage`): the mode buttons, the inputs, the search buttons, `handleSearch` and the identifier tokenisation `trim().split(/[\s,]+/)`.

Three library modules give the standard-library behaviour the code relies on:

- `Common`: `Option`, `Result` and real sums.
- `PyText`: Python `str.split`/`join` and `str(int)`.
- `JsText`: JavaScript `trim` and splitting on runs of white space and commas.

Inputs the code gets from outside become parameters:

- Database query results are sequences.
- `float()` and `parseInt` are partial functions.
- `datetime.now()` is an integer number of seconds.
- The logged-id bank is a set.

Floating point is modelled as `real`, and timestamps as integer seconds.

Behaviours of the code worth noting:

- `useTaskGroupPolling` keeps no cancellation flag. An answer to a request from an earlier session is still reported. A COMPLETE answer can still clear `isActive` and call `onSuccess` while the new group's interval keeps running (`TaskGroupPolling.StaleAnswerStillActs`). Only `useResultsPolling` has a stale-response guard.
- The group poller never probes at once: its first query follows the first tick. The results poller fetches at once.
- The door value is the text between the first and second `:` of the third comma-separated field.
- The identifier box is trimmed of white space only. A leading or trailing comma survives and yields an empty first or last identifier, which is sent (`DeviceAnalyticsPage.LeadingCommaSendsEmptyIdentifier`, `DeviceAnalyticsPage.TrailingCommaSendsEmptyIdentifier`).
- The year and month inputs store `parseInt` of what is typed, so a cleared input holds NaN, which is sent with the task request as it is.
- With a total of 0 and a positive completed count, the progress width is `Infinity%`, because `|| 0` only catches NaN (`CO2StatsPage.ProgressWidth`).

## Model

| member | source | states |
|---|---|---|
| PyText.SplitJoin | backend/app/api/api_v1/endpoints/devices.py:43 | Splitting the separator-join of fields that avoid the separator gives the fields back, which is how `split(',')` and `split(':')` index the `extras` text |
| PyText.DecimalRoundTrip | backend/app/celery_worker.py:53 | The decimal text of an integer, as an f-string writes it, parses back to that integer |
| DoorOpenings.DoorValueText | backend/app/api/api_v1/endpoints/devices.py:43-46 | A door text exists exactly when `extras` has a third comma-separated field containing a colon; otherwise the record is skipped instead of raising; the text holds no comma and no colon |
| DoorOpenings.DoorValueTextOfFields | backend/app/api/api_v1/endpoints/devices.py:43 | Whatever surrounds it, the value written as the second colon-part of the third comma-field is the value read back |
| DoorOpenings.RunSumsAreRunDurations | backend/app/api/api_v1/endpoints/devices.py:52-54 | There is one run sum per maximal positive run; each equals the sum of its run and is strictly positive |
| DoorOpenings.RunsCoverPositives | backend/app/api/api_v1/endpoints/devices.py:52-63 | Concatenated in order, the maximal runs are exactly the positive readings |
| DoorOpenings.RunsCount | backend/app/api/api_v1/endpoints/devices.py:52-71 | The number of runs is the number of places where a positive reading starts a run (first, or after a non-positive one) |
| DoorOpenings.RunSumsTotal | backend/app/api/api_v1/endpoints/devices.py:73 | The run durations add up to the sum of all positive readings |
| DoorOpenings.AppendOpening | backend/app/api/api_v1/endpoints/devices.py:56-62 | Closing an opening keeps the ids 1..n and appends exactly its duration |
| DoorOpenings.ScanClosesPendingRuns | backend/app/api/api_v1/endpoints/devices.py:52-71 | From any point, the loop emits exactly the pending runs (the open one extended by following positives, then the later runs), including the final run still open at the end, numbered consecutively |
| DoorOpenings.Openings | backend/app/api/api_v1/endpoints/devices.py:48-71 | The openings are numbered 1, 2, … in order and their durations are the maximal-run sums of the readings |
| DoorOpenings.GetDoorOpeningStats | backend/app/api/api_v1/endpoints/devices.py:20-82 | A non-ISO date is a 400 with the fixed message; a day without records is a 404 naming the serial and date; otherwise success echoing serial and date |
| DoorOpenings.DoorOpeningsAreRuns | backend/app/api/api_v1/endpoints/devices.py:40-82 | On success `total_openings` equals the number of openings and of maximal runs; ids are 1..n; each duration is its run's sum and is positive; the durations total the positive readings; the average is total/count, or 0 with no opening |
| DoorOpenings.UnreadableRecordsGiveNoOpenings | backend/app/api/api_v1/endpoints/devices.py:40-74 | Records that exist but have no readable door value give 0 openings and average 0, not an error |
| DeviceStatus.Dedupe | backend/app/api/api_v1/endpoints/devices.py:90 | `dict.fromkeys` keeps every identifier, adds none and leaves no duplicate |
| DeviceStatus.DedupeOrder | backend/app/api/api_v1/endpoints/devices.py:90 | The kept identifiers appear in increasing order of their first occurrence |
| DeviceStatus.DedupeDistinct | backend/app/api/api_v1/endpoints/devices.py:90 | A list without duplicates is left unchanged |
| DeviceStatus.DedupeIdempotent | backend/app/api/api_v1/endpoints/devices.py:90 | De-duplicating twice is the same as once |
| DeviceStatus.OrderKey | backend/app/api/api_v1/endpoints/devices.py:92-95 | The `case` key is the position of the serial among the unique identifiers when it is one of them, otherwise their count (devices matched only by SIM number sort last) |
| DeviceStatus.OrderKeysDistinct | backend/app/api/api_v1/endpoints/devices.py:92-102 | Distinct requested serials get distinct keys, ordered as the identifiers were first typed |
| DeviceStatus.DaysOffline | backend/app/api/api_v1/endpoints/devices.py:111 | `abs(.days)` is the whole days rounded up for a past last log and rounded down for a future one |
| DeviceStatus.NumberRows | backend/app/api/api_v1/endpoints/devices.py:109-115 | One row per query row in the same order, `No = i + 1`, every device field kept, `log_status` stringified exactly when present, `log_duration` present exactly when `last_log` is and then the whole days offline |
| DeviceStatus.NumberRowsPrefix | backend/app/api/api_v1/endpoints/devices.py:110-115 | Numbering more rows never renumbers the earlier ones |
| DeviceStatus.GetMultiDeviceStatus | backend/app/api/api_v1/endpoints/devices.py:109-125 | The registered and the test list are each the numbered rows of their own query, each numbered from 1 by position |
| DeviceStatus.TestDevicesMatch | backend/app/api/api_v1/endpoints/devices.py:97-107 | Every device the test query selects is also selected by the registered-device filter, and both filters only widen with more identifiers |
| Emissions.BranchesAgree | backend/app/api/api_v1/endpoints/co2.py:48-53 | Adjacent branches of the three-tier formula agree at both breakpoints, for any schedule |
| Emissions.EmissionIsMarginal | backend/app/api/api_v1/endpoints/co2.py:48-53 | The branch formula equals the marginal-rate definition: each tier's rate applied to the part of the energy inside that tier |
| Emissions.EmissionMonotone | backend/app/api/api_v1/endpoints/co2.py:48-53 | With non-negative rates, more energy never gives less emission |
| Emissions.EmissionBounds | backend/app/api/api_v1/endpoints/co2.py:48-53 | With decreasing rates and non-negative energy, the emission lies between energy times the last rate and energy times the first |
| Emissions.AnnualCO2 | backend/app/api/api_v1/endpoints/co2.py:14-53 | The three annual tiers with breakpoints 55 and 250 and rates 0.0068, 0.0013, 0.0010, and bounds for non-negative energy |
| Emissions.DailyCO2 | backend/app/celery_worker.py:36-89 | The three daily tiers with breakpoints 0.1505817 and 0.684462 and rates 0.0068, 0.0013, 0.001, and bounds for non-negative energy |
| Emissions.ReportsContinuousAndMonotone | backend/app/api/api_v1/endpoints/co2.py:48-53 | Both schedules agree across branches at their breakpoints (0.374 at 55, 0.6275 at 250) and are nondecreasing |
| AnnualReport.ProcessDoc | backend/app/api/api_v1/endpoints/co2.py:46-60 | A row copies client id, year and energy; its emission is the annual tiers' value of that energy, between 0 and energy × 0.0068 for non-negative energy |
| AnnualReport.ClientsAnnualCO2 | backend/app/api/api_v1/endpoints/co2.py:44-60 | One row per aggregated document in the same order, identifiers and energy copied, emissions by the annual tiers |
| AnnualReport.ClientsAnnualCO2Append | backend/app/api/api_v1/endpoints/co2.py:44-60 | The report of two document lists is the two reports concatenated |
| AnnualReport.ReportOrdersByEnergy | backend/app/api/api_v1/endpoints/co2.py:45-60 | A row with more energy never shows lower emissions than another |
| MonthlyTask.IdIsJoinOfFields | backend/app/celery_worker.py:53 | The unique id is its six fields joined by `A` |
| MonthlyTask.UniqueIdRoundTrip | backend/app/celery_worker.py:53 | Splitting a unique id on `A` gives back client, serial, year, month and day, even when the serial contains `A` |
| MonthlyTask.UniqueIdInjective | backend/app/celery_worker.py:53 | Equal unique ids come from equal client, serial, year, month and day |
| MonthlyTask.UniqueIdSeparates | backend/app/celery_worker.py:51-53 | Device-days of different serials or days get different ids |
| MonthlyTask.Gain | backend/app/celery_worker.py:72-79 | A reading after a gap over half an hour, or with voltage or current missing, adds nothing; after any gap of at most half an hour, negative gaps included, it adds voltage × current × gap in hours, so a non-negative power over a forward gap adds a non-negative amount and a positive power over a backward gap a negative one |
| MonthlyTask.EnergyIsPairSum | backend/app/celery_worker.py:69-80 | The loop's energy is the sum of the gains of consecutive reading pairs; the first reading adds nothing |
| MonthlyTask.EnergyNonNegative | backend/app/celery_worker.py:69-80 | Time-ordered readings with non-negative power give non-negative energy |
| MonthlyTask.DayRecordFor | backend/app/celery_worker.py:53-103 | A device-day yields a record exactly when its id is not logged and it has readings; the record carries that id, the device, the job, kWh = energy/1000 and the daily tiers' emissions |
| MonthlyTask.DeviceRecords | backend/app/celery_worker.py:52-103 | A device's records have days in range and strictly increasing |
| MonthlyTask.DeviceRecordsMembership | backend/app/celery_worker.py:52-103 | A record is in a device's list exactly when it is that device's record for one of the remaining days |
| MonthlyTask.RecordsMembership | backend/app/celery_worker.py:51-103 | A record is produced exactly when it is some device's record for some day 1..31 |
| MonthlyTask.RecordsComplete | backend/app/celery_worker.py:51-67 | Every unlogged device-day with readings is produced |
| MonthlyTask.RecordsEmpty | backend/app/celery_worker.py:51-67 | When every device-day is logged or empty, nothing is produced |
| MonthlyTask.RecordIdsDistinct | backend/app/celery_worker.py:51-53 | With distinct device serials, no two produced records share an id |
| MonthlyTask.RecordFields | backend/app/celery_worker.py:51-67 | Every produced record has the id of its device-day, an unlogged id, a day in 1..31 and readings |
| MonthlyTask.MonthlyCO2Task | backend/app/celery_worker.py:42-111 | No devices gives Failed with nothing inserted; a missing user raises; otherwise the run completes, inserting the records of the unlogged device-days with readings under the client's full name, with `days_processed` = number inserted, and logging every inserted id |
| MonthlyTask.TaskIdempotent | backend/app/celery_worker.py:51-109 | Re-running with the logged ids of a run inserts nothing and logs nothing new |
| TaskGroupPolling.Step | frontend/src/hooks/useTaskGroupPolling.ts:11-36 | No group makes it inactive with no interval; a group makes it active with an interval and no request yet; a tick sends one request for the current group; every answer is reported; COMPLETE clears `isActive`, calls `onSuccess` once and stops the interval that sent the request; a failure clears `isActive` without `onSuccess` and stops that interval too; an answer to an earlier session's request leaves the current interval as it was; cleanup stops the interval |
| TaskGroupPolling.StoppedStaysStopped | frontend/src/hooks/useTaskGroupPolling.ts:23-35 | Once the interval is stopped, no event short of a new effect run restarts it or sends a request |
| TaskGroupPolling.CleanupStopsTicks | frontend/src/hooks/useTaskGroupPolling.ts:35 | After cleanup no tick reaches the service |
| TaskGroupPolling.TicksSendRequests | frontend/src/hooks/useTaskGroupPolling.ts:18-33 | n ticks send exactly n requests, all for the current group, and report nothing |
| TaskGroupPolling.StaleAnswerStillActs | frontend/src/hooks/useTaskGroupPolling.ts:18-35 | A COMPLETE answer for the previous group, arriving after a switch, is still reported, calls `onSuccess` and clears `isActive` while the new interval runs |
| TaskGroupPolling.ReportsCountAnswers | frontend/src/hooks/useTaskGroupPolling.ts:11-36 | Over any trace, group changes included, reports grow by at most one per event, and `onSuccess` calls never outnumber reports |
| ResultsPolling.Step | frontend/src/hooks/useResultsPolling.ts:16-37 | Inactive runs fetch nothing and keep the data; an active run fetches at once and starts the interval; a tick fetches once; only a result for the live session replaces the data; failures change nothing; cleanup cancels and stops the interval |
| ResultsPolling.RunValid | frontend/src/hooks/useResultsPolling.ts:17-36 | The interval runs exactly while the session is uncancelled, so the flag check at the top of `poll` never fires for a tick |
| ResultsPolling.CancelledStaysQuiet | frontend/src/hooks/useResultsPolling.ts:19-36 | After cancellation, until the next effect run, nothing is fetched and the data never changes |
| ResultsPolling.CleanupDropsLateResults | frontend/src/hooks/useResultsPolling.ts:33-36 | Results still in flight at cleanup are dropped |
| ResultsPolling.FailuresKeepPolling | frontend/src/hooks/useResultsPolling.ts:25-31 | Failures keep the session and its interval live and the data unchanged; every tick fetches once |
| ResultsPolling.StaleAnswersDropped | frontend/src/hooks/useResultsPolling.ts:19-24 | Answers to fetches of earlier sessions only settle those fetches; the data stays as it was |
| ResultsPolling.ActivationFetchesAndStores | frontend/src/hooks/useResultsPolling.ts:16-37 | Activation fetches once at once, whatever is still in flight; answers to the earlier sessions' fetches, arriving first, leave the data alone, and the new fetch's answer becomes the data |
| MockFetch.Initial | frontend/src/hooks/useMockFetch.ts:6-8 | Data null, loading true, error null |
| MockFetch.Step | frontend/src/hooks/useMockFetch.ts:11-20 | A run sets loading and clears the error, keeping the data; success stores the result; failure sets the fixed message and keeps the data; loading is off after either |
| MockFetch.RunKeepsShape | frontend/src/hooks/useMockFetch.ts:12-20 | The error is always null or the fixed message, and data once present stays present |
| MockFetch.RunThenSettle | frontend/src/hooks/useMockFetch.ts:11-25 | A run then success ends with the result and no error; a run then failure ends with the message and the old data; loading is off in both |
| MockFetch.OneAtATime | frontend/src/hooks/useMockFetch.ts:12-20 | When calls settle one at a time, loading is on exactly while a call is pending |
| CO2StatsPage.InitialPage | frontend/src/pages/CO2StatsPage.tsx:28-34 | Empty Client ID, the current year and month, no active group, progress 0 of 0, no form error, nothing sent |
| CO2StatsPage.Step | frontend/src/pages/CO2StatsPage.tsx:53-104 | The Client ID input stores the text, the year and month inputs store its `parseInt` (NaN as none); a disabled button ignores clicks; an empty Client ID sets its message and sends nothing; otherwise the error is cleared, progress reset to 0 of 0 and one request sent with the form's values; an answer sets the active group to `group_id` or null; a failure sets its message and keeps the group |
| CO2StatsPage.FormFollowsEdits | frontend/src/pages/CO2StatsPage.tsx:101-103 | Whatever else happens, the Client ID, year and month are what was last typed into each input, or their initial values |
| CO2StatsPage.ClickSendsLastEdits | frontend/src/pages/CO2StatsPage.tsx:53-61 | An enabled click sends the Client ID last typed before it, its parsed value and the last year and month typed; with an empty Client ID it sends nothing and shows the message |
| CO2StatsPage.RequestsNeedClientId | frontend/src/pages/CO2StatsPage.tsx:53-61 | Requests are only appended; each carries a non-empty Client ID that was there at the start or was typed; their number is the number of enabled clicks made while the last-typed Client ID was non-empty |
| CO2StatsPage.RequestsCarryTypedIds | frontend/src/pages/CO2StatsPage.tsx:28-61 | From the page as it loads, every request carries a Client ID the user typed |
| CO2StatsPage.TypeThenSubmit | frontend/src/pages/CO2StatsPage.tsx:28-61 | Typing a non-empty Client ID and clicking sends exactly one request, with that text, its parsed value and the current year and month |
| CO2StatsPage.FailureKeepsGroup | frontend/src/pages/CO2StatsPage.tsx:60-65 | A failed submission after a successful one keeps the earlier group active and shows the failure message |
| CO2StatsPage.AnswerStartsGroupPolling | frontend/src/pages/CO2StatsPage.tsx:40-62 | After the start service answers, the task-group poller becomes active, for that group, exactly when the answer carries a non-empty `group_id`; an empty id becomes null before the poller sees it |
| CO2StatsPage.TableFollowsForm | frontend/src/pages/CO2StatsPage.tsx:42-51 | After the form changes, answers to fetches still in flight for the old form are dropped, and once the fetch for the current form is answered the table shows the rows of that client, year and month, or null when the Client ID is empty or not a number |
| CO2StatsPage.MonthlyTotal | frontend/src/pages/CO2StatsPage.tsx:68-71 | 0 without data, else the sum of the days' emissions, non-negative when they are |
| CO2StatsPage.MonthlyTotalGrows | frontend/src/pages/CO2StatsPage.tsx:68-71 | One more day adds exactly its emissions to the total |
| CO2StatsPage.ProgressWidth | frontend/src/pages/CO2StatsPage.tsx:117 | 0% for 0 of 0, the percentage for a non-zero total, and an infinite width for a non-zero count over a zero total |
| CO2StatsPage.ProgressWidthBounded | frontend/src/pages/CO2StatsPage.tsx:117 | With 0 ≤ completed ≤ total and total > 0 the width is a percentage in [0, 100] |
| CO2StatsPage.AnswerWidth | frontend/src/pages/CO2StatsPage.tsx:117 | For a progress answer, missing counts read as 0: no total and nothing completed shows 0%, no total and something completed an infinite width, consistent counts a percentage in [0, 100] |
| JsText.Tokenize | frontend/src/pages/DeviceAnalyticsPage.tsx:55 | The text is exactly the pieces with its maximal separator runs between them; no piece holds a separator; only the first and last may be empty; the pieces hold the text's non-separator characters in order |
| JsText.TokenizeInterleave | frontend/src/pages/DeviceAnalyticsPage.tsx:55 | Conversely, pieces without separators, non-empty except possibly the first and last, joined by separator runs of any length, split back into exactly those pieces |
| JsText.TrimPadded | frontend/src/pages/DeviceAnalyticsPage.tsx:50-55 | Trimming white space around a text that neither starts nor ends with white space gives that text |
| DeviceAnalyticsPage.IdentifierList | frontend/src/pages/DeviceAnalyticsPage.tsx:55 | The trimmed box is exactly the identifiers with its separator runs between them; none holds white space or a comma; only the first and last may be empty, the first only after a leading comma; together they hold the box's non-separator characters in order |
| DeviceAnalyticsPage.Step | frontend/src/pages/DeviceAnalyticsPage.tsx:33-103 | Mode buttons and inputs set their field; a disabled button does nothing and an enabled one searches; a search marks it happened and clears both results; an empty serial or blank box sets its message with loading off and sends nothing; otherwise loading is on, the error cleared and one request sent (a direct search does so even while loading, as `handleSearch` has no loading check); an outcome stores its result or error and turns loading off |
| DeviceAnalyticsPage.SearchThenOutcome | frontend/src/pages/DeviceAnalyticsPage.tsx:33-63 | A search followed by its outcome always ends with loading off and with the result or an error |
| DeviceAnalyticsPage.FailureShowsMessage | frontend/src/pages/DeviceAnalyticsPage.tsx:59-62 | A failed request always shows a non-empty message, the error's own when it has one, with loading off |
| DeviceAnalyticsPage.ButtonAlwaysSends | frontend/src/pages/DeviceAnalyticsPage.tsx:95-103 | Through the button, the search's missing-input checks never fire: a click does nothing or sends one request with loading on and the error cleared |
| DeviceAnalyticsPage.ButtonWaitsForOutcome | frontend/src/pages/DeviceAnalyticsPage.tsx:95-103 | A second click before the outcome sends nothing more |
| DeviceAnalyticsPage.IdentifiersRoundTrip | frontend/src/pages/DeviceAnalyticsPage.tsx:55 | Identifiers separated by runs of white space and commas of any length, padded with white space, are sent exactly as typed |
| DeviceAnalyticsPage.TypedIdentifiersAreSent | frontend/src/pages/DeviceAnalyticsPage.tsx:50-103 | Switching to status lookup, typing such identifiers and clicking sends exactly those identifiers |
| DeviceAnalyticsPage.LeadingCommaSendsEmptyIdentifier | frontend/src/pages/DeviceAnalyticsPage.tsx:50-55 | A box starting with a comma passes the blank check and sends an empty first identifier |
| DeviceAnalyticsPage.TrailingCommaSendsEmptyIdentifier | frontend/src/pages/DeviceAnalyticsPage.tsx:50-55 | A box ending with a comma sends an empty last identifier |

## Left out

- Database, Celery, FastAPI and MongoDB plumbing is not modelled; query results are inputs. This includes the SQL `between`/`extract` filters, the join with users, the `$group`/`$sort` aggregation and `order_by`. So the ordering of devices whose `case` keys tie (several matched only by SIM number) is not modelled.
- AnnualReport.ProcessDoc: the report's `round(…, 4)` is not modelled. The stored emission is the exact tier value, because rounding to decimal places has no counterpart on `real`.
- MonthlyTask.Gain: the NaN/infinity filter is not modelled, because `real` has neither value. Readings are real numbers with integer-second times. So a sub-second gap is not representable.
- DoorOpenings.DoorValue: `float()` is the parameter `parseFloat`. It cannot yield NaN or infinity, and a NaN reading in the source would close a run like a non-positive one.
- Date parsing (`fromisoformat`) is the boolean `dateIsIso`. `datetime.now()` is the integer `now`. The placeholder opening timestamps are not modelled.
- `parseInt` is a parameter. The services (`startMonthlyCO2Task`, `fetchMonthlyCO2Stats`, `getTaskGroupProgress`, the device fetches) are opaque requests that succeed with a value or fail. Their modules are not part of this model.
- Real timers are discrete `Tick` events, so their periods (5000 ms and 7000 ms) play no part. Answers settle in request order, so out-of-order completion of overlapping requests is not modelled.
- `console` logging, `toFixed` formatting and the rendering of tables and messages are not modelled.
- The `first_name`/`last_name` f-string on missing names is not modelled. The client name is `first + " " + last`, and a missing user row is the `ClientMissing` error.
- MockFetch.Step: there is no unmount or cancellation, as in the hook. An outcome with no call pending is ignored.
- The single-task poller `useTaskPolling` is entirely commented out in the source, so there is nothing to model.

=== FILE: annual_co2.dfy ===
/** `get_clients_annual_co2` after the aggregation: each document holds a
    client's total energy for one year, and becomes one report row with the
    annual emissions. The `$group`/`$sort` pipeline itself runs in the
    database; its result is the input here. */
module AnnualReport {
  import Emissions

  /** One aggregated document: `_id.client_id`, `_id.year`, `total_energy`. */
  datatype EnergyDoc = EnergyDoc(clientId: int, year: int, totalEnergy: real)

  /** One report row. */
  datatype ClientCO2 = ClientCO2(clientId: int, year: int, totalEnergy: real, totalCO2: real)

  /** The report row of one document: identifiers and energy copied, and the
      annual emissions of that energy. */
  function ProcessDoc(doc: EnergyDoc): (row: ClientCO2)
    ensures row.clientId == doc.clientId && row.year == doc.year && row.totalEnergy == doc.totalEnergy
    ensures row.totalCO2 == Emissions.AnnualCO2(doc.totalEnergy)
    ensures doc.totalEnergy >= 0.0 ==> 0.0 <= row.totalCO2 <= doc.totalEnergy * 0.0068
  {
    ClientCO2(doc.clientId, doc.year, doc.totalEnergy, Emissions.AnnualCO2(doc.totalEnergy))
  }

  /** The loop over the aggregated documents: one row per document, in the
      same order. */
  function ClientsAnnualCO2(docs: seq<EnergyDoc>): (rows: seq<ClientCO2>)
    ensures |rows| == |docs|
    ensures forall i :: 0 <= i < |rows| ==>
      rows[i].clientId == docs[i].clientId && rows[i].year == docs[i].year
      && rows[i].totalEnergy == docs[i].totalEnergy
      && rows[i].totalCO2 == Emissions.AnnualCO2(docs[i].totalEnergy)
  {
    seq(|docs|, i requires 0 <= i < |docs| => ProcessDoc(docs[i]))
  }

  /** The report can be built piecewise: the rows of two document lists are
      the rows of each, one after the other. */
  lemma ClientsAnnualCO2Append(a: seq<EnergyDoc>, b: seq<EnergyDoc>)
    ensures ClientsAnnualCO2(a + b) == ClientsAnnualCO2(a) + ClientsAnnualCO2(b)
  {
    assert forall i :: 0 <= i < |a + b| ==>
      ClientsAnnualCO2(a + b)[i] == (ClientsAnnualCO2(a) + ClientsAnnualCO2(b))[i];
  }

  /** Within the report, a client-year with more energy never shows lower
      emissions. */
  lemma ReportOrdersByEnergy(docs: seq<EnergyDoc>, i: nat, j: nat)
    requires i < |docs| && j < |docs|
    requires docs[i].totalEnergy <= docs[j].totalEnergy
    ensures ClientsAnnualCO2(docs)[i].totalCO2 <= ClientsAnnualCO2(docs)[j].totalCO2
  {
    Emissions.ReportsContinuousAndMonotone(docs[i].totalEnergy, docs[j].totalEnergy);
  }
}

=== FILE: co2_stats_page.dfy ===
/** The monthly deep dive of the CO2 statistics page: the form (Client ID,
    year, month), submitting the monthly task (`handleMonthlyAnalysis`), the
    results query the results poller runs (`resultsPollingFn`), the monthly
    total and the progress bar. `parseInt` is a parameter: it yields the
    integer JavaScript reads from the start of the text, or None for NaN. */
module CO2StatsPage {
  import opened Common
  import TaskGroupPolling
  import ResultsPolling

  /** What the progress callback receives: `{ completed, total }`. */
  type Progress = TaskGroupPolling.Progress

  /** The monthly results the results poller asks for. */
  datatype MonthQuery = MonthQuery(clientId: int, year: Option<int>, month: Option<int>)

  /** A call to the task-start service: the Client ID text and its parsed
      value, year and month (None for NaN). */
  datatype TaskRequest = TaskRequest(clientText: string, clientId: Option<int>, year: Option<int>, month: Option<int>)

  /** The page's form and task state, and the task requests sent so far.
      The year and month hold `parseInt` of their inputs, so they can be
      NaN (None). */
  datatype Page = Page(
    clientId: string,
    year: Option<int>,
    month: Option<int>,
    activeGroupId: Option<string>,
    progress: Progress,
    formError: Option<string>,
    sent: seq<TaskRequest>)

  datatype Event =
    /** Typing into the Client ID, year or month input. */
    | EditClientId(text: string)
    | EditYear(yearText: string)
    | EditMonth(monthText: string)
    /** A click on the start button; `pollingActive` is what the task-group
        poller reports, which disables the button. */
    | Click(pollingActive: bool)
    /** The start service answered with this `group_id`. */
    | Accepted(groupId: Option<string>)
    /** The start service threw. */
    | Rejected
    /** The task-group poller reported progress. */
    | Report(p: Progress)

  const MissingClientMessage := "Please enter a Client ID."
  const SubmitFailedMessage := "Failed to submit the calculation task."

  /** `useState` initial values, for the given current year and month. */
  function InitialPage(year: int, month: int): (p: Page)
    ensures p.clientId == "" && p.year == Some(year) && p.month == Some(month)
    ensures p.activeGroupId.None? && p.progress == TaskGroupPolling.Progress(0, 0) && p.formError.None? && p.sent == []
  {
    Page("", Some(year), Some(month), None, TaskGroupPolling.Progress(0, 0), None, [])
  }

  /** `response.group_id || null`: an absent or empty group id is null. */
  function GroupOrNull(groupId: Option<string>): (g: Option<string>)
    ensures g.Some? <==> groupId.Some? && groupId.value != ""
    ensures g.Some? ==> g == groupId
  {
    if groupId.Some? && groupId.value != "" then groupId else None
  }

  /** One event. The inputs set their field (year and month through
      `parseInt`). A disabled button ignores clicks. An empty Client ID sets
      the form error and sends nothing; otherwise the error is cleared, the
      progress reset to 0 of 0 and one task request sent with the form's
      current values. An answer makes its group id (or null) the active
      group; a failure sets the form error and keeps the active group. */
  function Step(p: Page, e: Event, parseInt: string -> Option<int>): (q: Page)
    ensures e.EditClientId? ==> q == p.(clientId := e.text)
    ensures e.EditYear? ==> q == p.(year := parseInt(e.yearText))
    ensures e.EditMonth? ==> q == p.(month := parseInt(e.monthText))
    ensures e.Click? && e.pollingActive ==> q == p
    ensures e.Click? && !e.pollingActive && p.clientId == "" ==>
      q == p.(formError := Some(MissingClientMessage))
    ensures e.Click? && !e.pollingActive && p.clientId != "" ==>
      && q.formError.None? && q.progress == TaskGroupPolling.Progress(0, 0)
      && q.sent == p.sent + [TaskRequest(p.clientId, parseInt(p.clientId), p.year, p.month)]
      && q.activeGroupId == p.activeGroupId
    ensures e.Accepted? ==> q == p.(activeGroupId := GroupOrNull(e.groupId))
    ensures e.Rejected? ==> q == p.(formError := Some(SubmitFailedMessage))
    ensures e.Report? ==> q == p.(progress := e.p)
    ensures !e.Click? ==> q.sent == p.sent
    ensures !(e.EditClientId? || e.EditYear? || e.EditMonth?) ==>
      q.clientId == p.clientId && q.year == p.year && q.month == p.month
  {
    match e
    case EditClientId(t) => p.(clientId := t)
    case EditYear(t) => p.(year := parseInt(t))
    case EditMonth(t) => p.(month := parseInt(t))
    case Click(active) =>
      if active then p
      else if p.clientId == "" then p.(formError := Some(MissingClientMessage))
      else
        p.(formError := None, progress := TaskGroupPolling.Progress(0, 0),
           sent := p.sent + [TaskRequest(p.clientId, parseInt(p.clientId), p.year, p.month)])
    case Accepted(g) => p.(activeGroupId := GroupOrNull(g))
    case Rejected => p.(formError := Some(SubmitFailedMessage))
    case Report(progress) => p.(progress := progress)
  }

  function Run(p: Page, events: seq<Event>, parseInt: string -> Option<int>): Page
    decreases |events|
  {
    if events == [] then p else Run(Step(p, events[0], parseInt), events[1..], parseInt)
  }

  lemma {:induction false} RunSnoc(p: Page, events: seq<Event>, e: Event, parseInt: string -> Option<int>)
    ensures Run(p, events + [e], parseInt) == Step(Run(p, events, parseInt), e, parseInt)
    decreases |events|
  {
    if events == [] {
      assert events + [e] == [e];
    } else {
      assert (events + [e])[1..] == events[1..] + [e];
      RunSnoc(Step(p, events[0], parseInt), events[1..], e, parseInt);
    }
  }

  // ---------------------------------------------------------------------
  // The form's fields, read off the edits alone.

  /** The Client ID after `events`: the text of the last edit, or `c` when
      there is none. */
  function ClientIdAfter(c: string, events: seq<Event>): string
    decreases |events|
  {
    if events == [] then c
    else if events[|events| - 1].EditClientId? then events[|events| - 1].text
    else ClientIdAfter(c, events[..|events| - 1])
  }

  /** The year after `events`: the parsed text of the last year edit, or
      `y` when there is none. */
  function YearAfter(y: Option<int>, events: seq<Event>, parseInt: string -> Option<int>): Option<int>
    decreases |events|
  {
    if events == [] then y
    else if events[|events| - 1].EditYear? then parseInt(events[|events| - 1].yearText)
    else YearAfter(y, events[..|events| - 1], parseInt)
  }

  function MonthAfter(m: Option<int>, events: seq<Event>, parseInt: string -> Option<int>): Option<int>
    decreases |events|
  {
    if events == [] then m
    else if events[|events| - 1].EditMonth? then parseInt(events[|events| - 1].monthText)
    else MonthAfter(m, events[..|events| - 1], parseInt)
  }

  /** The form always shows what was last typed into each input: nothing but
      the edits changes the Client ID, year or month. */
  lemma {:induction false} FormFollowsEdits(p: Page, events: seq<Event>, parseInt: string -> Option<int>)
    ensures Run(p, events, parseInt).clientId == ClientIdAfter(p.clientId, events)
    ensures Run(p, events, parseInt).year == YearAfter(p.year, events, parseInt)
    ensures Run(p, events, parseInt).month == MonthAfter(p.month, events, parseInt)
    decreases |events|
  {
    if events != [] {
      var init := events[..|events| - 1];
      var e := events[|events| - 1];
      FormFollowsEdits(p, init, parseInt);
      assert init + [e] == events;
      RunSnoc(p, init, e, parseInt);
    }
  }

  /** Each enabled click sends the form as last typed: the request carries
      the Client ID of the last edit before the click, its parsed value, and
      the last year and month typed; with an empty Client ID the click sends
      nothing and shows the message. */
  lemma ClickSendsLastEdits(p: Page, events: seq<Event>, k: nat, parseInt: string -> Option<int>)
    requires k < |events| && events[k] == Click(false)
    ensures var before, c := Run(p, events[..k], parseInt), ClientIdAfter(p.clientId, events[..k]);
      var after := Run(p, events[..k + 1], parseInt);
      && (c != "" ==>
            after.sent == before.sent + [TaskRequest(c, parseInt(c), YearAfter(p.year, events[..k], parseInt), MonthAfter(p.month, events[..k], parseInt))])
      && (c == "" ==> after.sent == before.sent && after.formError == Some(MissingClientMessage))
  {
    assert events[..k + 1] == events[..k] + [Click(false)];
    RunSnoc(p, events[..k], Click(false), parseInt);
    FormFollowsEdits(p, events[..k], parseInt);
  }

  /** The enabled clicks that send a request: those made while the Client
      ID, as last typed, is non-empty. Counted from the edits alone. */
  function SubmittingClicks(c: string, events: seq<Event>): nat
    decreases |events|
  {
    if events == [] then 0
    else
      var e := events[0];
      (if e.Click? && !e.pollingActive && c != "" then 1 else 0)
      + SubmittingClicks(if e.EditClientId? then e.text else c, events[1..])
  }

  /** Every Client ID ever typed. */
  function EditedTexts(events: seq<Event>): set<string> {
    set i | 0 <= i < |events| && events[i].EditClientId? :: events[i].text
  }

  /** Requests are only ever appended; every one sent comes from a
      non-empty Client ID that was either there at the start or typed, and
      their number is the number of enabled clicks made with a non-empty
      Client ID. */
  lemma {:induction false} RequestsNeedClientId(p: Page, events: seq<Event>, parseInt: string -> Option<int>)
    requires forall i :: 0 <= i < |p.sent| ==> p.sent[i].clientText != ""
    ensures var q := Run(p, events, parseInt);
      && |q.sent| == |p.sent| + SubmittingClicks(p.clientId, events)
      && q.sent[..|p.sent|] == p.sent
      && (forall i :: 0 <= i < |q.sent| ==> q.sent[i].clientText != "")
      && (forall i :: |p.sent| <= i < |q.sent| ==>
            q.sent[i].clientText == p.clientId || q.sent[i].clientText in EditedTexts(events))
    decreases |events|
  {
    if events != [] {
      var e := events[0];
      var p1 := Step(p, e, parseInt);
      RequestsNeedClientId(p1, events[1..], parseInt);
      var q := Run(p, events, parseInt);
      assert q == Run(p1, events[1..], parseInt);
      assert p1.sent[..|p.sent|] == p.sent;
      assert q.sent[..|p1.sent|] == p1.sent;
      assert q.sent[..|p.sent|] == p.sent by {
        assert q.sent[..|p.sent|] == q.sent[..|p1.sent|][..|p.sent|];
      }
      TextsAfterFirst(events);
      forall i | |p.sent| <= i < |q.sent|
        ensures q.sent[i].clientText == p.clientId || q.sent[i].clientText in EditedTexts(events)
      {
        if i < |p1.sent| {
          assert q.sent[i] == p1.sent[i];
        } else {
          assert e.EditClientId? ==> e.text in EditedTexts(events) by {
            if e.EditClientId? { assert events[0] == e; }
          }
        }
      }
    }
  }

  lemma TextsAfterFirst(events: seq<Event>)
    requires events != []
    ensures EditedTexts(events[1..]) <= EditedTexts(events)
  {
    forall x | x in EditedTexts(events[1..]) ensures x in EditedTexts(events) {
      var i :| 0 <= i < |events[1..]| && events[1..][i].EditClientId? && events[1..][i].text == x;
      assert events[i + 1] == events[1..][i];
    }
  }

  /** From the page as it loads, every request carries a Client ID the user
      typed. */
  lemma RequestsCarryTypedIds(year: int, month: int, events: seq<Event>, parseInt: string -> Option<int>)
    ensures var q := Run(InitialPage(year, month), events, parseInt);
      forall i :: 0 <= i < |q.sent| ==> q.sent[i].clientText in EditedTexts(events)
  {
    RequestsNeedClientId(InitialPage(year, month), events, parseInt);
  }

  /** Typing a Client ID and clicking the enabled button sends it with the
      current year and month. */
  lemma TypeThenSubmit(year: int, month: int, text: string, parseInt: string -> Option<int>)
    requires text != ""
    ensures Run(InitialPage(year, month), [EditClientId(text), Click(false)], parseInt).sent
      == [TaskRequest(text, parseInt(text), Some(year), Some(month))]
  {
    var e := [EditClientId(text), Click(false)];
    var p1 := Step(InitialPage(year, month), EditClientId(text), parseInt);
    assert e[1..] == [Click(false)];
    assert Run(InitialPage(year, month), e, parseInt) == Run(p1, [Click(false)], parseInt);
    assert Run(p1, [Click(false)], parseInt) == Step(p1, Click(false), parseInt);
  }

  /** A submission that fails after a successful one keeps polling the
      earlier group: failures never touch the active group. */
  lemma FailureKeepsGroup(p: Page, g: string, parseInt: string -> Option<int>)
    requires g != "" && p.clientId != ""
    ensures Run(p, [Click(false), Accepted(Some(g)), Click(false), Rejected], parseInt).activeGroupId == Some(g)
    ensures Run(p, [Click(false), Accepted(Some(g)), Click(false), Rejected], parseInt).formError == Some(SubmitFailedMessage)
  {
    var e := [Click(false), Accepted(Some(g)), Click(false), Rejected];
    var p1 := Step(p, Click(false), parseInt);
    var p2 := Step(p1, Accepted(Some(g)), parseInt);
    var p3 := Step(p2, Click(false), parseInt);
    var p4 := Step(p3, Rejected, parseInt);
    assert e[1..] == [Accepted(Some(g)), Click(false), Rejected];
    assert e[1..][1..] == [Click(false), Rejected];
    assert e[1..][1..][1..] == [Rejected];
    assert Run(p, e, parseInt) == Run(p1, e[1..], parseInt);
    assert Run(p1, e[1..], parseInt) == Run(p2, e[1..][1..], parseInt);
    assert Run(p2, e[1..][1..], parseInt) == Run(p3, [Rejected], parseInt);
    assert Run(p3, [Rejected], parseInt) == p4;
  }

  /** The start service's answer decides the task-group poller: it becomes
      active, for that group, exactly when the answer carries a non-empty
      group id. `|| null` never hands the poller an empty id, so its own
      empty-string check is only ever met by null. */
  lemma AnswerStartsGroupPolling(p: Page, g: Option<string>, s: TaskGroupPolling.Poller, parseInt: string -> Option<int>)
    ensures var active := Step(p, Accepted(g), parseInt).activeGroupId;
      && (TaskGroupPolling.NoGroup(active) <==> active.None?)
      && (TaskGroupPolling.Step(s, TaskGroupPolling.Mount(active)).isActive <==> g.Some? && g.value != "")
      && (g.Some? && g.value != "" ==> TaskGroupPolling.Step(s, TaskGroupPolling.Mount(active)).groupId == g.value)
  {
  }

  // ---------------------------------------------------------------------
  // The results query.

  /** `resultsPollingFn`: with a non-empty Client ID that parses as an
      integer, the monthly results of that client, year and month are
      fetched; otherwise the poll resolves to null without a request. */
  function ResultsQuery(clientId: string, year: Option<int>, month: Option<int>, parseInt: string -> Option<int>): (q: Option<MonthQuery>)
    ensures q.Some? <==> clientId != "" && parseInt(clientId).Some?
    ensures q.Some? ==> q.value == MonthQuery(parseInt(clientId).value, year, month)
  {
    if clientId != "" && parseInt(clientId).Some? then Some(MonthQuery(parseInt(clientId).value, year, month)) else None
  }

  /** What one poll resolves to: the rows the service returns for the
      query (`fetch`), or null without a query. */
  function PollAnswer<R>(query: Option<MonthQuery>, fetch: MonthQuery -> seq<R>): Option<seq<R>> {
    match query
    case None => None
    case Some(q) => Some(fetch(q))
  }

  /** `polledResults?.data || null`: the rows when a response with data was
      received (an empty array is kept, as arrays are truthy), else null. */
  function MonthlyData<R>(polled: Option<Option<seq<R>>>): (d: Option<seq<R>>)
    ensures d.Some? <==> polled.Some? && polled.value.Some?
    ensures d.Some? ==> d.value == polled.value.value
  {
    if polled.Some? then polled.value else None
  }

  /** The table follows the form through the results poller: when the poll
      function changes, the poller's effect runs again and fetches at once.
      Answers to fetches made for the form as it was before, still in
      flight, are dropped; once the new fetch is answered the table shows the
      rows of the form's client, year and month, or null when the Client ID
      is empty or not a number, whatever it showed before. */
  lemma TableFollowsForm<R>(
    s: ResultsPolling.Poller<Option<seq<R>>>, stale: seq<ResultsPolling.Event<Option<seq<R>>>>,
    clientId: string, year: Option<int>, month: Option<int>,
    parseInt: string -> Option<int>, fetch: MonthQuery -> seq<R>)
    requires ResultsPolling.Valid(s)
    requires ResultsPolling.Answers(stale) && |stale| == |s.inFlight|
    ensures var query := ResultsQuery(clientId, year, month, parseInt);
      var t := ResultsPolling.Run(s, [ResultsPolling.Mount(true)] + stale + [ResultsPolling.Response(PollAnswer(query, fetch))]);
      && (clientId == "" || parseInt(clientId).None? ==> MonthlyData(t.data) == None)
      && (clientId != "" && parseInt(clientId).Some? ==>
            MonthlyData(t.data) == Some(fetch(MonthQuery(parseInt(clientId).value, year, month))))
  {
    var query := ResultsQuery(clientId, year, month, parseInt);
    ResultsPolling.ActivationFetchesAndStores(s, stale, PollAnswer(query, fetch));
  }

  /** `monthlyTotalCO2`: 0 without data, otherwise the sum of the days'
      emissions. */
  function MonthlyTotal(emissions: Option<seq<real>>): (total: real)
    ensures emissions.None? ==> total == 0.0
    ensures emissions.Some? ==> total == Sum(emissions.value)
    ensures emissions.Some? && (forall i :: 0 <= i < |emissions.value| ==> emissions.value[i] >= 0.0) ==> total >= 0.0
  {
    match emissions
    case None => 0.0
    case Some(xs) =>
      assert (forall i :: 0 <= i < |xs| ==> xs[i] >= 0.0) ==> Sum(xs) >= 0.0 by {
        if forall i :: 0 <= i < |xs| ==> xs[i] >= 0.0 { SumNonNegative(xs); }
      }
      Sum(xs)
  }

  /** Adding a day to the data adds its emissions to the total. */
  lemma MonthlyTotalGrows(xs: seq<real>, day: real)
    ensures MonthlyTotal(Some(xs + [day])) == MonthlyTotal(Some(xs)) + day
  {
    assert (xs + [day])[..|xs|] == xs;
  }

  // ---------------------------------------------------------------------
  // The progress bar.

  /** What `${(completed / total) * 100 || 0}%` renders: a percentage, or
      an infinite width when a positive or negative count is divided by 0. */
  datatype Width = Percent(value: real) | PosInfinity | NegInfinity

  /** The width of the progress bar. JavaScript division by 0 gives NaN for
      0/0, which `|| 0` turns into 0, and an infinity otherwise, which it
      keeps. */
  function ProgressWidth(p: Progress): (w: Width)
    ensures p.completed == 0 && p.total == 0 ==> w == Percent(0.0)
    ensures p.total != 0 ==> w == Percent(p.completed as real / p.total as real * 100.0)
    ensures p.total == 0 && p.completed > 0 ==> w == PosInfinity
    ensures p.total == 0 && p.completed < 0 ==> w == NegInfinity
  {
    if p.total != 0 then Percent(p.completed as real / p.total as real * 100.0)
    else if p.completed > 0 then PosInfinity
    else if p.completed < 0 then NegInfinity
    else Percent(0.0)
  }

  /** With a known total and no more completed than that, the bar is a
      proper percentage between 0 and 100. */
  lemma ProgressWidthBounded(p: Progress)
    requires 0 <= p.completed <= p.total && p.total > 0
    ensures ProgressWidth(p).Percent?
    ensures 0.0 <= ProgressWidth(p).value <= 100.0
  {
    var r := p.completed as real / p.total as real;
    assert r * p.total as real == p.completed as real;
    assert r <= 1.0;
  }

  /** The bar drawn for a progress answer: missing counts read as 0, so an
      answer without a total shows 0% when nothing is completed and an
      infinite width as soon as something is; an answer with consistent
      counts shows a percentage between 0 and 100. */
  lemma AnswerWidth(a: TaskGroupPolling.GroupProgress)
    ensures var w := ProgressWidth(TaskGroupPolling.ToProgress(a));
      && (a.total.GetOr(0) == 0 && a.completed.GetOr(0) == 0 ==> w == Percent(0.0))
      && (a.total.GetOr(0) == 0 && a.completed.GetOr(0) > 0 ==> w == PosInfinity)
      && (0 <= a.completed.GetOr(0) <= a.total.GetOr(0) && a.total.GetOr(0) > 0 ==> w.Percent? && 0.0 <= w.value <= 100.0)
  {
    var p := TaskGroupPolling.ToProgress(a);
    if 0 <= p.completed <= p.total && p.total > 0 {
      ProgressWidthBounded(p);
    }
  }
}

=== FILE: common.dfy ===
/** Shared vocabulary: the optional value (Python's None, JavaScript's
    null/undefined) and sums of real-valued sequences. */
module Common {

  /** A value that may be absent. */
  datatype Option<+T> = None | Some(value: T) {

    /** The value when present, otherwise the given default (`x || d`
        and `x if x is not None else d` in the source). */
    function GetOr(default: T): T {
      match this
      case Some(v) => v
      case None => default
    }
  }

  /** The outcome of an operation that can fail: the value, or the error the
      source raises or returns. */
  datatype Result<+T, +E> = Ok(value: T) | Err(error: E)

  /** The present values, in order; absent ones are skipped. Every present
      value is kept and nothing else appears. */
  function Somes<T>(xs: seq<Option<T>>): (vs: seq<T>)
    ensures |vs| <= |xs|
    ensures forall i :: 0 <= i < |xs| && xs[i].Some? ==> xs[i].value in vs
    ensures forall j :: 0 <= j < |vs| ==> Some(vs[j]) in xs
    ensures (forall i :: 0 <= i < |xs| ==> xs[i].None?) ==> vs == []
    ensures (forall i :: 0 <= i < |xs| ==> xs[i].Some?) ==>
      |vs| == |xs| && forall i :: 0 <= i < |vs| ==> Some(vs[i]) == xs[i]
    decreases |xs|
  {
    if xs == [] then []
    else
      var init, last := xs[..|xs| - 1], xs[|xs| - 1];
      var prev := Somes(init);
      var vs := match last case None => prev case Some(v) => prev + [v];
      SomesSnoc(xs, prev);
      vs
  }

  /** What `Somes` promises about `vs` as the present values of `xs`. */
  ghost predicate SomesOf<T>(xs: seq<Option<T>>, vs: seq<T>) {
    && |vs| <= |xs|
    && (forall i :: 0 <= i < |xs| && xs[i].Some? ==> xs[i].value in vs)
    && (forall j :: 0 <= j < |vs| ==> Some(vs[j]) in xs)
    && ((forall i :: 0 <= i < |xs| ==> xs[i].None?) ==> vs == [])
    && ((forall i :: 0 <= i < |xs| ==> xs[i].Some?) ==>
      |vs| == |xs| && forall i :: 0 <= i < |vs| ==> Some(vs[i]) == xs[i])
  }

  /** One more optional value at the end: keep it when present. */
  lemma SomesSnoc<T>(xs: seq<Option<T>>, prev: seq<T>)
    requires |xs| > 0 && SomesOf(xs[..|xs| - 1], prev)
    ensures SomesOf(xs, match xs[|xs| - 1] case None => prev case Some(v) => prev + [v])
  {
    var init, last := xs[..|xs| - 1], xs[|xs| - 1];
    var vs := match last case None => prev case Some(v) => prev + [v];
    assert forall i :: 0 <= i < |init| ==> xs[i] == init[i];
    forall i | 0 <= i < |xs| && xs[i].Some? ensures xs[i].value in vs {
      if i < |init| {
        assert init[i].value in prev;
      }
    }
    forall j | 0 <= j < |vs| ensures Some(vs[j]) in xs {
      if j < |prev| {
        assert vs[j] == prev[j];
        assert Some(prev[j]) in init;
      } else {
        assert xs[|init|] == last;
      }
    }
    if forall i :: 0 <= i < |xs| ==> xs[i].None? {
      assert xs[|init|] == last;
    }
    if forall i :: 0 <= i < |xs| ==> xs[i].Some? {
      assert xs[|init|] == last;
      assert forall i :: 0 <= i < |prev| ==> vs[i] == prev[i];
    }
  }

  /** All the inner sequences, one after the other. */
  function Flatten<T>(xss: seq<seq<T>>): seq<T>
    decreases |xss|
  {
    if xss == [] then [] else xss[0] + Flatten(xss[1..])
  }

  lemma {:induction false} FlattenAppend<T>(a: seq<seq<T>>, b: seq<seq<T>>)
    ensures Flatten(a + b) == Flatten(a) + Flatten(b)
    decreases |a|
  {
    if a == [] {
      assert a + b == b;
    } else {
      assert (a + b)[1..] == a[1..] + b;
      FlattenAppend(a[1..], b);
    }
  }

  /** Sum of a sequence of reals, left to right (Python's `sum`,
      JavaScript's `reduce((a, x) => a + x, 0)`). */
  function Sum(xs: seq<real>): real
    decreases |xs|
  {
    if xs == [] then 0.0 else Sum(xs[..|xs| - 1]) + xs[|xs| - 1]
  }

  /** The sum distributes over concatenation. */
  lemma {:induction false} SumAppend(xs: seq<real>, ys: seq<real>)
    ensures Sum(xs + ys) == Sum(xs) + Sum(ys)
    decreases |ys|
  {
    if ys == [] {
      assert xs + ys == xs;
    } else {
      var zs := xs + ys;
      assert zs[..|zs| - 1] == xs + ys[..|ys| - 1];
      SumAppend(xs, ys[..|ys| - 1]);
    }
  }

  /** Summing from the front gives the same value as summing from the back. */
  lemma SumCons(x: real, xs: seq<real>)
    ensures Sum([x] + xs) == x + Sum(xs)
  {
    SumAppend([x], xs);
    assert Sum([x]) == x by {
      assert [x][..0] == [];
    }
  }

  /** A sum of non-negative reals is non-negative. */
  lemma {:induction false} SumNonNegative(xs: seq<real>)
    requires forall i :: 0 <= i < |xs| ==> xs[i] >= 0.0
    ensures Sum(xs) >= 0.0
    decreases |xs|
  {
    if xs != [] {
      SumNonNegative(xs[..|xs| - 1]);
    }
  }

  /** A sum of strictly positive reals over a non-empty sequence is positive. */
  lemma {:induction false} SumPositive(xs: seq<real>)
    requires |xs| > 0
    requires forall i :: 0 <= i < |xs| ==> xs[i] > 0.0
    ensures Sum(xs) > 0.0
    decreases |xs|
  {
    if |xs| > 1 {
      SumPositive(xs[..|xs| - 1]);
    } else {
      assert xs[..0] == [];
    }
  }

  /** A sequence is its three consecutive slices. */
  lemma Slices3<T>(s: seq<T>, i: nat, j: nat)
    requires i <= j <= |s|
    ensures s == s[..i] + s[i..j] + s[j..]
  {
  }
}

=== FILE: device_analytics_page.dfy ===
/** `handleSearch` of the device analytics page and the form around it. In
    door-opening mode a search asks for one device's door statistics on a
    date; in status-lookup mode it splits the identifier box into
    identifiers and asks for their status. Every search starts by turning
    loading on, clearing the error and both result sets and marking that a
    search happened; the request's outcome arrives later as `DoorLoaded`,
    `StatusLoaded` or `Thrown`. The mode buttons and the inputs set their
    field; the search button is disabled while loading and while its input
    is empty. */
module DeviceAnalyticsPage {
  import opened Common
  import opened JsText

  datatype Mode = DoorOpenings | StatusLookup

  /** A request to the backend: door statistics or a status lookup. */
  datatype Request = DoorRequest(serial: string, date: string) | StatusRequest(identifiers: seq<string>)

  /** The page state, with `D` and `S` the two result types, and the
      requests sent so far. */
  datatype Page<D, S> = Page(
    mode: Mode,
    serialNumber: string,
    date: string,
    identifiers: string,
    isLoading: bool,
    error: Option<string>,
    hasSearched: bool,
    doorData: Option<D>,
    statusData: Option<S>,
    sent: seq<Request>)

  datatype Event<D, S> =
    /** A mode button. */
    | SetMode(mode: Mode)
    /** Typing into the serial number, date or identifier input. */
    | EditSerial(serial: string)
    | EditDate(date: string)
    | EditIdentifiers(text: string)
    /** A click on the search button of the current mode. */
    | Press
    /** A call of `handleSearch`. */
    | Search
    | DoorLoaded(door: D)
    | StatusLoaded(status: S)
    /** The request threw an error with this `message` (None when it has
        none). */
    | Thrown(message: Option<string>)

  const MissingSerialMessage := "Please enter a serial number."
  const MissingIdentifiersMessage := "Please enter at least one identifier."
  const DefaultErrorMessage := "Failed to fetch data."

  /** `identifiers.trim().split(/[\s,]+/)`: at least one identifier, none
      containing white space or a comma; the trimmed box is exactly the
      identifiers with its maximal runs of white space and commas between
      them; only the first and last identifier may be empty (the first only
      when the trimmed text starts with a comma); and together they hold
      exactly the characters of the box that are neither white space nor
      commas, in order. */
  function IdentifierList(identifiers: string): (ids: seq<string>)
    ensures |ids| >= 1
    ensures |ids| == |SepRuns(Trim(identifiers))| + 1
    ensures Interleave(ids, SepRuns(Trim(identifiers))) == Trim(identifiers)
    ensures forall i :: 0 <= i < |ids| ==> NoSep(ids[i])
    ensures forall i :: 0 < i < |ids| - 1 ==> ids[i] != []
    ensures |Trim(identifiers)| > 0 && Trim(identifiers)[0] != ',' ==> ids[0] != []
    ensures Flatten(ids) == RemoveSeps(identifiers)
  {
    TrimRemovesOnlySeps(identifiers);
    Tokenize(Trim(identifiers))
  }

  /** Trimming only removes separators, so the non-separator characters are
      the same before and after. */
  lemma TrimRemovesOnlySeps(s: string)
    ensures RemoveSeps(Trim(s)) == RemoveSeps(s)
  {
    var r := Trim(s);
    var front, back := TrimParts(s);
    RemoveSepsAppend(front + r, back);
    RemoveSepsAppend(front, r);
    RemoveSepsOfBlank(front);
    RemoveSepsOfBlank(back);
  }

  /** `err.message || 'Failed to fetch data.'`. */
  function ErrorFor(message: Option<string>): (m: string)
    ensures message.Some? && message.value != "" ==> m == message.value
    ensures message.None? || message.value == "" ==> m == DefaultErrorMessage
  {
    if message.Some? && message.value != "" then message.value else DefaultErrorMessage
  }

  /** The search button's `disabled`: while loading, and while the current
      mode's input is empty (the identifier box counts as empty when it is
      blank). */
  predicate ButtonDisabled<D, S>(p: Page<D, S>) {
    p.isLoading || (if p.mode == DoorOpenings then p.serialNumber == "" else Trim(p.identifiers) == [])
  }

  /** `handleSearch` up to the request: both result sets cleared and the
      search marked; a missing input sets its message, otherwise the request
      goes out with loading on. */
  function HandleSearch<D, S>(p: Page<D, S>): Page<D, S> {
    var started := p.(isLoading := true, error := None, hasSearched := true, doorData := None, statusData := None);
    if p.mode == DoorOpenings then
      if p.serialNumber == "" then started.(error := Some(MissingSerialMessage), isLoading := false)
      else started.(sent := p.sent + [DoorRequest(p.serialNumber, p.date)])
    else
      if Trim(p.identifiers) == [] then started.(error := Some(MissingIdentifiersMessage), isLoading := false)
      else started.(sent := p.sent + [StatusRequest(IdentifierList(p.identifiers))])
  }

  /** One event. The mode buttons and the inputs set their field and nothing
      else. A search always marks that a search happened and clears both
      result sets. Door mode without a serial, or status mode with a blank
      identifier box, sets the matching message, leaves loading off and sends
      nothing. Otherwise the error is cleared, loading stays on and one
      request is sent: the serial and date, or the identifiers split on runs
      of white space and commas; `handleSearch` itself does not look at
      loading, so a direct search sends even while a request is out. A click
      on a disabled button does nothing; on an enabled one it searches. An outcome stores its result or its
      error, and loading is off after any outcome. */
  function Step<D, S>(p: Page<D, S>, e: Event<D, S>): (q: Page<D, S>)
    ensures e.SetMode? ==> q == p.(mode := e.mode)
    ensures e.EditSerial? ==> q == p.(serialNumber := e.serial)
    ensures e.EditDate? ==> q == p.(date := e.date)
    ensures e.EditIdentifiers? ==> q == p.(identifiers := e.text)
    ensures e.Press? && ButtonDisabled(p) ==> q == p
    ensures e.Search? || (e.Press? && !ButtonDisabled(p)) ==> q.hasSearched && q.doorData.None? && q.statusData.None?
    ensures e.Search? && p.mode == DoorOpenings && p.serialNumber == "" ==>
      q.error == Some(MissingSerialMessage) && !q.isLoading && q.sent == p.sent
    ensures e.Search? && p.mode == StatusLookup && Blank(p.identifiers) ==>
      q.error == Some(MissingIdentifiersMessage) && !q.isLoading && q.sent == p.sent
    ensures (e.Search? || (e.Press? && !p.isLoading)) && p.mode == DoorOpenings && p.serialNumber != "" ==>
      q.error.None? && q.isLoading && q.sent == p.sent + [DoorRequest(p.serialNumber, p.date)]
    ensures (e.Search? || (e.Press? && !p.isLoading)) && p.mode == StatusLookup && !Blank(p.identifiers) ==>
      q.error.None? && q.isLoading && q.sent == p.sent + [StatusRequest(IdentifierList(p.identifiers))]
    ensures e.DoorLoaded? ==> q == p.(doorData := Some(e.door), isLoading := false)
    ensures e.StatusLoaded? ==> q == p.(statusData := Some(e.status), isLoading := false)
    ensures e.Thrown? ==> q == p.(error := Some(ErrorFor(e.message)), isLoading := false)
  {
    match e
    case SetMode(m) => p.(mode := m)
    case EditSerial(t) => p.(serialNumber := t)
    case EditDate(t) => p.(date := t)
    case EditIdentifiers(t) => p.(identifiers := t)
    case Press => if ButtonDisabled(p) then p else HandleSearch(p)
    case Search => HandleSearch(p)
    case DoorLoaded(d) => p.(doorData := Some(d), isLoading := false)
    case StatusLoaded(s) => p.(statusData := Some(s), isLoading := false)
    case Thrown(m) => p.(error := Some(ErrorFor(m)), isLoading := false)
  }

  function Run<D, S>(p: Page<D, S>, events: seq<Event<D, S>>): Page<D, S>
    decreases |events|
  {
    if events == [] then p else Run(Step(p, events[0]), events[1..])
  }

  /** A search followed by its outcome always ends with loading off, and
      with either the stored result or an error. */
  lemma SearchThenOutcome<D, S>(p: Page<D, S>, outcome: Event<D, S>)
    requires outcome.DoorLoaded? || outcome.StatusLoaded? || outcome.Thrown?
    ensures var q := Step(Step(p, Search), outcome);
      && !q.isLoading && q.hasSearched
      && (outcome.DoorLoaded? ==> q.doorData == Some(outcome.door) && q.statusData.None?)
      && (outcome.StatusLoaded? ==> q.statusData == Some(outcome.status) && q.doorData.None?)
      && (outcome.Thrown? ==> q.error.Some? && q.doorData.None? && q.statusData.None?)
  {
  }

  /** A failed request always shows a message: the error text the page
      renders is never empty, whatever the thrown error carries. */
  lemma FailureShowsMessage<D, S>(p: Page<D, S>, message: Option<string>)
    ensures var q := Step(p, Thrown(message));
      q.error.Some? && q.error.value != "" && !q.isLoading
    ensures message.Some? && message.value != "" ==> Step(p, Thrown(message)).error == message
  {
  }

  /** Through the button, the search's own checks for a missing input never
      fire: a click either does nothing or sends exactly one request with the
      error cleared and loading on. */
  lemma ButtonAlwaysSends<D, S>(p: Page<D, S>)
    ensures var q := Step(p, Press);
      q == p || (q.isLoading && q.error.None? && |q.sent| == |p.sent| + 1 && q.sent[..|p.sent|] == p.sent)
  {
    var q := Step(p, Press);
    assert q.sent[..|p.sent|] == p.sent || q == p;
  }

  /** The button is disabled while a request is out, so a second click
      before the outcome sends nothing more. */
  lemma ButtonWaitsForOutcome<D, S>(p: Page<D, S>)
    ensures Run(p, [Press, Press]).sent == Step(p, Press).sent
  {
    var q := Step(p, Press);
    var e: seq<Event<D, S>> := [Press, Press];
    assert e[1..] == [Press];
    assert Run(p, e) == Run(q, [Press]);
    assert Run(q, [Press]) == Step(q, Press);
  }

  /** Identifiers without separators, separated by runs of white space and
      commas of any length and padded with white space on either side, are
      sent exactly as typed. */
  lemma IdentifiersRoundTrip(ids: seq<string>, seps: seq<string>, front: string, back: string)
    requires |ids| == |seps| + 1
    requires forall i :: 0 <= i < |ids| ==> ids[i] != [] && NoSep(ids[i])
    requires forall i :: 0 <= i < |seps| ==> SepRun(seps[i])
    requires Blank(front) && Blank(back)
    ensures IdentifierList(front + Interleave(ids, seps) + back) == ids
  {
    var mid := Interleave(ids, seps);
    var last := ids[|ids| - 1];
    InterleaveLast(ids, seps);
    InterleaveStart(ids, seps);
    assert !IsSep(last[|last| - 1]);
    TrimPadded(front, mid, back);
    TokenizeInterleave(ids, seps);
  }

  /** Switching to status lookup, typing identifiers separated by any runs
      of white space and commas, and searching sends exactly those
      identifiers. */
  lemma TypedIdentifiersAreSent<D, S>(p: Page<D, S>, ids: seq<string>, seps: seq<string>, front: string, back: string)
    requires !p.isLoading
    requires |ids| == |seps| + 1
    requires forall i :: 0 <= i < |ids| ==> ids[i] != [] && NoSep(ids[i])
    requires forall i :: 0 <= i < |seps| ==> SepRun(seps[i])
    requires Blank(front) && Blank(back)
    ensures var text := front + Interleave(ids, seps) + back;
      Run(p, [SetMode(StatusLookup), EditIdentifiers(text), Press]).sent == p.sent + [StatusRequest(ids)]
  {
    var text := front + Interleave(ids, seps) + back;
    IdentifiersRoundTrip(ids, seps, front, back);
    PaddedNotBlank(ids, seps, front, back);
    RunThree(p, SetMode(StatusLookup), EditIdentifiers(text), Press);
  }

  lemma PaddedNotBlank(ids: seq<string>, seps: seq<string>, front: string, back: string)
    requires |ids| == |seps| + 1 && ids[0] != [] && NoSep(ids[0])
    ensures !Blank(front + Interleave(ids, seps) + back)
  {
    var text := front + Interleave(ids, seps) + back;
    InterleaveStart(ids, seps);
    assert text[|front|] == Interleave(ids, seps)[0];
  }

  lemma RunThree<D, S>(p: Page<D, S>, e1: Event<D, S>, e2: Event<D, S>, e3: Event<D, S>)
    ensures Run(p, [e1, e2, e3]) == Step(Step(Step(p, e1), e2), e3)
  {
    var e := [e1, e2, e3];
    var p1 := Step(p, e1);
    var p2 := Step(p1, e2);
    assert e[1..] == [e2, e3];
    assert [e2, e3][1..] == [e3];
    assert Run(p, e) == Run(p1, [e2, e3]);
    assert Run(p1, [e2, e3]) == Run(p2, [e3]);
    assert Run(p2, [e3]) == Step(p2, e3);
  }

  /** A non-empty blank prefix starts with white space. */
  lemma BlankPrefixHead(s: string, i: nat)
    requires i <= |s| && Blank(s[..i])
    ensures i > 0 ==> IsWhite(s[0])
  {
    if i > 0 {
      assert s[..i][0] == s[0];
    }
  }

  /** A non-empty blank suffix ends with white space. */
  lemma BlankSuffixLast(s: string, j: nat)
    requires j <= |s| && Blank(s[j..])
    ensures j < |s| ==> IsWhite(s[|s| - 1])
  {
    if j < |s| {
      assert s[j..][|s| - j - 1] == s[|s| - 1];
    }
  }

  /** A leading comma survives trimming and yields an empty first
      identifier, which is sent along with the others. */
  lemma LeadingCommaSendsEmptyIdentifier(rest: string)
    ensures IdentifierList("," + rest)[0] == []
  {
    var s := "," + rest;
    TrimKeepsLeadingComma(s);
    LeadingCommaGivesEmptyToken(Trim(s));
  }

  /** Likewise a trailing comma yields an empty last identifier. */
  lemma TrailingCommaSendsEmptyIdentifier(rest: string)
    ensures var ids := IdentifierList(rest + ",");
      ids[|ids| - 1] == []
  {
    var s := rest + ",";
    TrimKeepsTrailingComma(s);
    TrailingCommaGivesEmptyToken(Trim(s));
  }

  lemma TrimKeepsLeadingComma(s: string)
    requires |s| > 0 && s[0] == ','
    ensures |Trim(s)| > 0 && Trim(s)[0] == ','
  {
    var r := Trim(s);
    assert !Blank(s) by {
      assert !IsWhite(s[0]);
    }
    var i := LeadingWhite(s);
    BlankPrefixHead(s, i);
    assert r[0] == s[i];
  }

  lemma TrimKeepsTrailingComma(s: string)
    requires |s| > 0 && s[|s| - 1] == ','
    ensures |Trim(s)| > 0 && Trim(s)[|Trim(s)| - 1] == ','
  {
    var r := Trim(s);
    assert !Blank(s) by {
      assert !IsWhite(s[|s| - 1]);
    }
    var i := LeadingWhite(s);
    BlankSuffixLast(s, i + |r|);
    assert r[|r| - 1] == s[i + |r| - 1];
  }
}

=== FILE: device_status.dfy ===
/** Multi-device status lookup (`get_multi_device_status`): the requested
    identifiers are de-duplicated keeping first occurrences, the database is
    asked for the matching devices, and every returned row is numbered by its
    position. The two database queries are inputs here: `registered` is what
    the join with the owners returns (already in the order of the `case`
    clause modelled by `OrderKey`), `tests` is what the test-device query
    returns. */
module DeviceStatus {

  import opened Common

  // ---------------------------------------------------------------------
  // `list(dict.fromkeys(identifiers))`

  /** Index of the first occurrence of `x` in `xs`, or `|xs|` when absent. */
  function FirstIndex(xs: seq<string>, x: string): (k: nat)
    ensures k <= |xs|
    ensures k < |xs| <==> x in xs
    ensures k < |xs| ==> xs[k] == x
    ensures forall j :: 0 <= j < k ==> xs[j] != x
    decreases |xs|
  {
    if xs == [] then 0
    else if xs[0] == x then 0
    else 1 + FirstIndex(xs[1..], x)
  }

  predicate NoDuplicates(xs: seq<string>) {
    forall i, j :: 0 <= i < j < |xs| ==> xs[i] != xs[j]
  }

  /** `list(dict.fromkeys(xs))`: every identifier once, in the order of its
      first occurrence. The result holds exactly the identifiers of `xs` and
      has no duplicates; `DedupeOrder` states the order. */
  function Dedupe(xs: seq<string>): (r: seq<string>)
    ensures |r| <= |xs|
    ensures forall i :: 0 <= i < |xs| ==> xs[i] in r
    ensures forall j :: 0 <= j < |r| ==> r[j] in xs
    ensures NoDuplicates(r)
    decreases |xs|
  {
    if xs == [] then []
    else
      var init := xs[..|xs| - 1];
      var x := xs[|xs| - 1];
      var d := Dedupe(init);
      assert xs == init + [x];
      if x in d then d
      else
        assert x !in init;
        d + [x]
  }

  /** The de-duplicated identifiers are listed by increasing position of
      their first occurrence. */
  lemma {:induction false} DedupeOrder(xs: seq<string>)
    ensures forall i, j :: 0 <= i < j < |Dedupe(xs)| ==> FirstIndex(xs, Dedupe(xs)[i]) < FirstIndex(xs, Dedupe(xs)[j])
    decreases |xs|
  {
    if xs != [] {
      var init := xs[..|xs| - 1];
      var x := xs[|xs| - 1];
      assert xs == init + [x];
      DedupeOrder(init);
      if x in Dedupe(init) {
        DedupeOrderSeen(init, x);
      } else {
        DedupeOrderNew(init, x);
      }
    }
  }

  /** An identifier seen before adds nothing and moves no first position. */
  lemma DedupeOrderSeen(init: seq<string>, x: string)
    requires x in Dedupe(init)
    requires forall i, j :: 0 <= i < j < |Dedupe(init)| ==> FirstIndex(init, Dedupe(init)[i]) < FirstIndex(init, Dedupe(init)[j])
    ensures forall i, j :: 0 <= i < j < |Dedupe(init + [x])| ==>
      FirstIndex(init + [x], Dedupe(init + [x])[i]) < FirstIndex(init + [x], Dedupe(init + [x])[j])
  {
    var xs := init + [x];
    assert xs[..|xs| - 1] == init;
    assert Dedupe(xs) == Dedupe(init);
    OrderedExtend(init, x, Dedupe(init));
  }

  /** A new identifier goes last and is first seen after all the others. */
  lemma DedupeOrderNew(init: seq<string>, x: string)
    requires x !in Dedupe(init)
    requires forall i, j :: 0 <= i < j < |Dedupe(init)| ==> FirstIndex(init, Dedupe(init)[i]) < FirstIndex(init, Dedupe(init)[j])
    ensures forall i, j :: 0 <= i < j < |Dedupe(init + [x])| ==>
      FirstIndex(init + [x], Dedupe(init + [x])[i]) < FirstIndex(init + [x], Dedupe(init + [x])[j])
  {
    DedupeSnoc(init, x);
    OrderedSnoc(init, x, Dedupe(init));
  }

  /** Elements of `init` listed by first position in `init` stay so listed
      in `init + [x]`. */
  lemma OrderedExtend(init: seq<string>, x: string, d: seq<string>)
    requires forall i :: 0 <= i < |d| ==> d[i] in init
    requires forall i, j :: 0 <= i < j < |d| ==> FirstIndex(init, d[i]) < FirstIndex(init, d[j])
    ensures forall i, j :: 0 <= i < j < |d| ==> FirstIndex(init + [x], d[i]) < FirstIndex(init + [x], d[j])
  {
    FirstIndexExtend(init, x);
  }

  /** ... and a new element appended after them is first seen last. */
  lemma OrderedSnoc(init: seq<string>, x: string, d: seq<string>)
    requires x !in init
    requires forall i :: 0 <= i < |d| ==> d[i] in init
    requires forall i, j :: 0 <= i < j < |d| ==> FirstIndex(init, d[i]) < FirstIndex(init, d[j])
    ensures forall i, j :: 0 <= i < j < |d + [x]| ==>
      FirstIndex(init + [x], (d + [x])[i]) < FirstIndex(init + [x], (d + [x])[j])
  {
    OrderedExtend(init, x, d);
    FirstIndexExtend(init, x);
    forall i | 0 <= i < |d| ensures FirstIndex(init + [x], d[i]) < |init| {
      assert FirstIndex(init, d[i]) < |init|;
    }
  }

  /** Appending an element leaves the first positions of the old elements
      alone; a new element is first seen at the end. */
  lemma FirstIndexExtend(init: seq<string>, x: string)
    ensures forall y :: y in init ==> FirstIndex(init + [x], y) == FirstIndex(init, y)
    ensures x !in init ==> FirstIndex(init + [x], x) == |init|
  {
    var xs := init + [x];
    forall y | y in init ensures FirstIndex(xs, y) == FirstIndex(init, y) {
      var k := FirstIndex(init, y);
      assert xs[k] == y;
      assert forall j :: 0 <= j < k ==> xs[j] == init[j];
    }
    if x !in init {
      assert forall j :: 0 <= j < |init| ==> xs[j] == init[j];
      assert xs[|init|] == x;
    }
  }

  /** Identifiers that are already distinct are kept as they are. */
  lemma {:induction false} DedupeDistinct(xs: seq<string>)
    requires NoDuplicates(xs)
    ensures Dedupe(xs) == xs
    decreases |xs|
  {
    if xs != [] {
      var init := xs[..|xs| - 1];
      var x := xs[|xs| - 1];
      assert NoDuplicates(init) by {
        assert forall i :: 0 <= i < |init| ==> init[i] == xs[i];
      }
      DedupeDistinct(init);
      assert x !in init by {
        assert forall i :: 0 <= i < |init| ==> init[i] == xs[i];
      }
      assert xs == init + [x];
      DedupeSnoc(init, x);
    }
  }

  /** A new identifier at the end is kept at the end. */
  lemma DedupeSnoc(init: seq<string>, x: string)
    requires x !in init
    ensures Dedupe(init + [x]) == Dedupe(init) + [x]
  {
    var xs := init + [x];
    assert xs[..|xs| - 1] == init;
  }

  /** De-duplicating twice is the same as once. */
  lemma DedupeIdempotent(xs: seq<string>)
    ensures Dedupe(Dedupe(xs)) == Dedupe(xs)
  {
    DedupeDistinct(Dedupe(xs));
  }

  /** The sort key of the `case` clause: a device's position in the
      de-duplicated identifiers when its serial is one of them (the first
      matching `when` wins), otherwise the number of identifiers, which sorts
      devices matched only by SIM number last. */
  function OrderKey(unique: seq<string>, serial: string): (k: nat)
    ensures k <= |unique|
    ensures k < |unique| <==> serial in unique
    ensures k < |unique| ==> unique[k] == serial
  {
    FirstIndex(unique, serial)
  }

  /** The serials of de-duplicated identifiers have distinct keys, so the
      registered devices come out in the order the identifiers were typed. */
  lemma OrderKeysDistinct(identifiers: seq<string>, a: string, b: string)
    requires a in identifiers && b in identifiers && a != b
    ensures OrderKey(Dedupe(identifiers), a) != OrderKey(Dedupe(identifiers), b)
    ensures OrderKey(Dedupe(identifiers), a) < OrderKey(Dedupe(identifiers), b)
            <==> FirstIndex(identifiers, a) < FirstIndex(identifiers, b)
  {
    var u := Dedupe(identifiers);
    DedupeOrder(identifiers);
    var i := OrderKey(u, a);
    var j := OrderKey(u, b);
    if i < j {
      assert FirstIndex(identifiers, u[i]) < FirstIndex(identifiers, u[j]);
    } else {
      assert FirstIndex(identifiers, u[j]) < FirstIndex(identifiers, u[i]);
    }
  }

  // ---------------------------------------------------------------------
  // Numbering the rows.

  /** One row of either query; `L` is the database type of `log_status` and
      `lastLog` is in seconds. */
  datatype DeviceRow<L> = DeviceRow(
    serial: string,
    alias: Option<string>,
    simNo: Option<string>,
    logStatus: Option<L>,
    lastLog: Option<int>,
    firstName: Option<string>,
    lastName: Option<string>)

  /** One row of the response. */
  datatype StatusRow = StatusRow(
    no: nat,
    serial: string,
    alias: Option<string>,
    simNo: Option<string>,
    logStatus: Option<string>,
    lastLog: Option<int>,
    firstName: Option<string>,
    lastName: Option<string>,
    logDuration: Option<int>)

  datatype StatusResponse = StatusResponse(registered: seq<StatusRow>, tests: seq<StatusRow>)

  const SecondsPerDay := 86400

  /** `abs((last_log - now).days)`. `.days` rounds towards minus infinity,
      so for a last log in the past the count is rounded up (a device silent
      for one second shows one day), and for one in the future it is rounded
      down. */
  function DaysOffline(lastLog: int, now: int): (d: nat)
    ensures lastLog <= now ==> (d - 1) * SecondsPerDay < now - lastLog <= d * SecondsPerDay
    ensures lastLog >= now ==> d * SecondsPerDay <= lastLog - now < (d + 1) * SecondsPerDay
  {
    var days := (lastLog - now) / SecondsPerDay;
    if days < 0 then -days else days
  }

  /** One response row: the row's fields with `log_status` stringified when
      present (`str` is Python's `str`), the position number and the days
      offline (None without a last log). */
  function ToStatusRow<L>(row: DeviceRow<L>, no: nat, now: int, str: L -> string): StatusRow {
    StatusRow(
      no, row.serial, row.alias, row.simNo,
      match row.logStatus case Some(s) => Some(str(s)) case None => None,
      row.lastLog, row.firstName, row.lastName,
      match row.lastLog case Some(t) => Some(DaysOffline(t, now) as int) case None => None)
  }

  /** The loop `for i, device in enumerate(rows)`: one response row per
      query row, in the same order, numbered `No = i + 1`, keeping every
      field of the device and stringifying `log_status` exactly when it is
      present. */
  function NumberRows<L>(rows: seq<DeviceRow<L>>, now: int, str: L -> string): (r: seq<StatusRow>)
    ensures |r| == |rows|
    ensures forall i :: 0 <= i < |r| ==> r[i].no == i + 1
    ensures forall i :: 0 <= i < |r| ==>
      && r[i].serial == rows[i].serial && r[i].alias == rows[i].alias
      && r[i].simNo == rows[i].simNo && r[i].lastLog == rows[i].lastLog
      && r[i].firstName == rows[i].firstName && r[i].lastName == rows[i].lastName
    ensures forall i :: 0 <= i < |r| ==>
      (r[i].logStatus.Some? <==> rows[i].logStatus.Some?) &&
      (rows[i].logStatus.Some? ==> r[i].logStatus.value == str(rows[i].logStatus.value))
    ensures forall i :: 0 <= i < |r| ==> (r[i].logDuration.Some? <==> rows[i].lastLog.Some?)
    ensures forall i :: 0 <= i < |r| && rows[i].lastLog.Some? ==>
      r[i].logDuration == Some(DaysOffline(rows[i].lastLog.value, now) as int)
  {
    seq(|rows|, i requires 0 <= i < |rows| => ToStatusRow(rows[i], i + 1, now, str))
  }

  /** The numbers of a response are exactly 1..n: numbering a longer result
      only adds rows at the end and never renumbers earlier ones. */
  lemma NumberRowsPrefix<L>(rows: seq<DeviceRow<L>>, more: seq<DeviceRow<L>>, now: int, str: L -> string)
    ensures NumberRows(rows + more, now, str)[..|rows|] == NumberRows(rows, now, str)
  {
    var a := NumberRows(rows + more, now, str);
    var b := NumberRows(rows, now, str);
    assert forall i :: 0 <= i < |rows| ==> a[i] == b[i];
  }

  /** `get_multi_device_status` once the queries have run: both lists are
      numbered independently from 1. */
  function GetMultiDeviceStatus<L>(
    registered: seq<DeviceRow<L>>, tests: seq<DeviceRow<L>>, now: int, str: L -> string): (r: StatusResponse)
    ensures |r.registered| == |registered| && |r.tests| == |tests|
    ensures forall i :: 0 <= i < |r.registered| ==> r.registered[i].no == i + 1 && r.registered[i].serial == registered[i].serial
    ensures forall i :: 0 <= i < |r.tests| ==> r.tests[i].no == i + 1 && r.tests[i].serial == tests[i].serial
    ensures r.registered == NumberRows(registered, now, str) && r.tests == NumberRows(tests, now, str)
  {
    StatusResponse(NumberRows(registered, now, str), NumberRows(tests, now, str))
  }

  /** The identifiers the queries are asked about. */
  function LookupParams(identifiers: seq<string>): seq<string> {
    Dedupe(identifiers)
  }

  /** The devices each query selects: registered devices match by serial or
      by SIM number; test devices match by serial and have an empty alias. */
  predicate MatchesLookup<L>(row: DeviceRow<L>, unique: seq<string>) {
    row.serial in unique || (row.simNo.Some? && row.simNo.value in unique)
  }

  predicate IsTestDevice<L>(row: DeviceRow<L>, unique: seq<string>) {
    row.serial in unique && row.alias == Some("")
  }

  /** Every test device is also matched by the registered-device filter;
      the selection conditions only widen with more identifiers. */
  lemma TestDevicesMatch<L>(row: DeviceRow<L>, identifiers: seq<string>, more: seq<string>)
    ensures IsTestDevice(row, LookupParams(identifiers)) ==> MatchesLookup(row, LookupParams(identifiers))
    ensures MatchesLookup(row, LookupParams(identifiers)) ==> MatchesLookup(row, LookupParams(identifiers + more))
    ensures IsTestDevice(row, LookupParams(identifiers)) ==> IsTestDevice(row, LookupParams(identifiers + more))
  {
    var u := LookupParams(identifiers);
    var w := LookupParams(identifiers + more);
    assert forall x :: x in u ==> x in identifiers + more;
    forall x | x in u ensures x in w {
      var k :| 0 <= k < |identifiers + more| && (identifiers + more)[k] == x;
    }
  }
}

=== FILE: door_openings.dfy ===
/** Door-opening statistics for one device on one day
    (`get_door_opening_stats`): a door reading is pulled out of each record's
    `extras` text, the readings are cut into maximal runs of positive values,
    and every run is one opening whose duration is the run's sum. */
module DoorOpenings {
  import opened Common
  import PyText

  /** One record of the day, as the database returns it (ordered by time). */
  datatype Stamp = Stamp(timeStamp: int, extras: string)

  /** One door opening. The source also attaches a placeholder timestamp (the
      wall-clock time of the request), which is not modelled. */
  datatype Opening = Opening(id: nat, durationSeconds: real)

  datatype DoorStats = DoorStats(
    serialNumber: string,
    date: string,
    totalOpenings: nat,
    averageDurationSeconds: real,
    openings: seq<Opening>)

  datatype HttpError = HttpError(status: nat, detail: string)

  // ---------------------------------------------------------------------
  // Reading the door value out of `extras`.

  /** The text the source hands to `float()`: the second `:`-separated part
      of the third `,`-separated field of `extras`. It exists exactly when
      `extras` has at least three fields and the third one holds a colon; it
      never contains a comma or a colon. */
  function DoorValueText(extras: string): (r: Option<string>)
    ensures r.Some? <==>
      |PyText.Split(extras, ',')| >= 3 && ':' in PyText.Split(extras, ',')[2]
    ensures r.Some? ==> ',' !in r.value && ':' !in r.value
  {
    var fields := PyText.Split(extras, ',');
    if |fields| < 3 then None
    else
      var parts := PyText.Split(fields[2], ':');
      if |parts| < 2 then None
      else
        assert ',' !in parts[1] by {
          PyText.PiecesAvoid(parts, ':', ',');
        }
        Some(parts[1])
  }

  /** Writing the door value as the second colon-separated part of the third
      comma-separated field gives it back, whatever surrounds it. */
  lemma {:induction false} DoorValueTextOfFields(
    first: string, second: string, key: string, value: string,
    moreParts: seq<string>, moreFields: seq<string>)
    requires ',' !in first && ',' !in second && ',' !in key && ',' !in value
    requires ':' !in key && ':' !in value
    requires forall i :: 0 <= i < |moreParts| ==> ',' !in moreParts[i] && ':' !in moreParts[i]
    requires forall i :: 0 <= i < |moreFields| ==> ',' !in moreFields[i]
    ensures DoorValueText(PyText.Join(
      [first, second, PyText.Join([key, value] + moreParts, ':')] + moreFields, ',')) == Some(value)
  {
    var third := PyText.Join([key, value] + moreParts, ':');
    SecondPart(key, value, moreParts);
    ThirdField(first, second, third, moreFields);
  }

  /** The second colon-separated part of a join is the value put there, and
      the join has no comma when no part has one. */
  lemma SecondPart(key: string, value: string, moreParts: seq<string>)
    requires ',' !in key && ',' !in value && ':' !in key && ':' !in value
    requires forall i :: 0 <= i < |moreParts| ==> ',' !in moreParts[i] && ':' !in moreParts[i]
    ensures var parts := PyText.Split(PyText.Join([key, value] + moreParts, ':'), ':');
      |parts| >= 2 && parts[1] == value
    ensures ',' !in PyText.Join([key, value] + moreParts, ':')
  {
    var parts := [key, value] + moreParts;
    assert forall i :: 0 <= i < |parts| ==> ',' !in parts[i] && ':' !in parts[i] by {
      forall i | 2 <= i < |parts| ensures parts[i] == moreParts[i - 2] { }
    }
    PyText.JoinAvoids(parts, ':', ',');
    PyText.SplitJoin(parts, ':');
  }

  /** The third comma-separated field of a join is the field put there. */
  lemma ThirdField(first: string, second: string, third: string, moreFields: seq<string>)
    requires ',' !in first && ',' !in second && ',' !in third
    requires forall i :: 0 <= i < |moreFields| ==> ',' !in moreFields[i]
    ensures var fields := PyText.Split(PyText.Join([first, second, third] + moreFields, ','), ',');
      |fields| >= 3 && fields[2] == third
  {
    var fields := [first, second, third] + moreFields;
    assert forall i :: 0 <= i < |fields| ==> ',' !in fields[i] by {
      forall i | 3 <= i < |fields| ensures fields[i] == moreFields[i - 3] { }
    }
    PyText.SplitJoin(fields, ',');
  }

  /** The door value of one record: `float()` of the extracted text, where
      `parseFloat` stands for `float()` (None when it raises). */
  function DoorValue(stamp: Stamp, parseFloat: string -> Option<real>): Option<real> {
    match DoorValueText(stamp.extras)
    case None => None
    case Some(t) => parseFloat(t)
  }

  /** The readings of the day: the door values of the records that have one,
      in record order; a record whose value cannot be read is skipped. */
  function DailyValues(stamps: seq<Stamp>, parseFloat: string -> Option<real>): seq<real> {
    Somes(seq(|stamps|, i requires 0 <= i < |stamps| => DoorValue(stamps[i], parseFloat)))
  }

  // ---------------------------------------------------------------------
  // Runs of positive readings: the reference definition.

  /** Length of the longest prefix of `v` whose values are all positive. */
  function PositivePrefix(v: seq<real>): (k: nat)
    ensures k <= |v|
    ensures forall i :: 0 <= i < k ==> v[i] > 0.0
    ensures k < |v| ==> v[k] <= 0.0
    decreases |v|
  {
    if v == [] || v[0] <= 0.0 then 0 else 1 + PositivePrefix(v[1..])
  }

  /** The maximal runs of strictly positive values of `v`, in order. Every run
      is non-empty and holds only positive values. */
  function Runs(v: seq<real>): (rs: seq<seq<real>>)
    ensures forall i :: 0 <= i < |rs| ==> |rs[i]| > 0
    ensures forall i, j :: 0 <= i < |rs| && 0 <= j < |rs[i]| ==> rs[i][j] > 0.0
    decreases |v|
  {
    if v == [] then []
    else if v[0] <= 0.0 then Runs(v[1..])
    else
      var k := PositivePrefix(v);
      var rest := Runs(v[k..]);
      assert forall i :: 1 <= i < |[v[..k]] + rest| ==> ([v[..k]] + rest)[i] == rest[i - 1];
      [v[..k]] + rest
  }

  /** The duration of each run, in order. */
  function RunSums(v: seq<real>): seq<real>
    decreases |v|
  {
    if v == [] then []
    else if v[0] <= 0.0 then RunSums(v[1..])
    else
      var k := PositivePrefix(v);
      [Sum(v[..k])] + RunSums(v[k..])
  }

  /** Entry `i` of `RunSums(v)` is the sum of run `i`, so it is positive. */
  lemma {:induction false} RunSumsAreRunDurations(v: seq<real>)
    ensures |RunSums(v)| == |Runs(v)|
    ensures forall i :: 0 <= i < |RunSums(v)| ==> RunSums(v)[i] == Sum(Runs(v)[i]) > 0.0
    decreases |v|
  {
    if v != [] {
      if v[0] <= 0.0 {
        assert RunSums(v) == RunSums(v[1..]);
        assert Runs(v) == Runs(v[1..]);
        RunSumsAreRunDurations(v[1..]);
      } else {
        var k := PositivePrefix(v);
        var ds := RunSums(v);
        var rs := Runs(v);
        assert ds == [Sum(v[..k])] + RunSums(v[k..]);
        assert rs == [v[..k]] + Runs(v[k..]);
        RunSumsAreRunDurations(v[k..]);
        forall i | 0 <= i < |ds| ensures ds[i] == Sum(rs[i]) > 0.0 {
          if i == 0 {
            SumPositive(v[..k]);
          } else {
            assert ds[i] == RunSums(v[k..])[i - 1];
            assert rs[i] == Runs(v[k..])[i - 1];
          }
        }
      }
    }
  }

  /** The positive values of `v`, in order. */
  function Positives(v: seq<real>): seq<real>
    decreases |v|
  {
    if v == [] then []
    else if v[0] > 0.0 then [v[0]] + Positives(v[1..])
    else Positives(v[1..])
  }

  /** Counts the places where a run starts: a positive value that is first or
      follows a value that is not positive (`afterPositive` says whether the
      value before `v` was positive). */
  function RunStarts(v: seq<real>, afterPositive: bool): nat
    decreases |v|
  {
    if v == [] then 0
    else (if v[0] > 0.0 && !afterPositive then 1 else 0) + RunStarts(v[1..], v[0] > 0.0)
  }

  /** The runs hold exactly the positive values, in order. */
  lemma {:induction false} RunsCoverPositives(v: seq<real>)
    ensures Flatten(Runs(v)) == Positives(v)
    decreases |v|
  {
    if v != [] {
      if v[0] <= 0.0 {
        RunsCoverPositives(v[1..]);
      } else {
        var k := PositivePrefix(v);
        RunsCoverPositives(v[k..]);
        assert Runs(v)[1..] == Runs(v[k..]);
        PositivesOfPositivePrefix(v, k);
      }
    }
  }

  lemma {:induction false} PositivesOfPositivePrefix(v: seq<real>, k: nat)
    requires k <= |v|
    requires forall i :: 0 <= i < k ==> v[i] > 0.0
    ensures Positives(v) == v[..k] + Positives(v[k..])
    decreases k
  {
    if k > 0 {
      PositivesOfPositivePrefix(v[1..], k - 1);
      assert v[1..][k - 1..] == v[k..];
      assert v[..k] == [v[0]] + v[1..][..k - 1];
    }
  }

  /** There are exactly as many runs as places where a run starts. */
  lemma {:induction false} RunsCount(v: seq<real>)
    ensures |Runs(v)| == RunStarts(v, false)
    decreases |v|
  {
    if v != [] {
      if v[0] <= 0.0 {
        RunsCount(v[1..]);
      } else {
        var k := PositivePrefix(v);
        RunsCount(v[k..]);
        RunStartsInsideRun(v, k);
      }
    }
  }

  /** Inside a run no new run starts; the value after the run is not positive,
      so what follows is counted as from a fresh start. */
  lemma {:induction false} RunStartsInsideRun(v: seq<real>, k: nat)
    requires 0 < k <= |v|
    requires forall i :: 0 <= i < k ==> v[i] > 0.0
    requires k < |v| ==> v[k] <= 0.0
    ensures RunStarts(v, false) == 1 + RunStarts(v[k..], false)
  {
    RunStartsSkip(v[1..], k - 1);
    assert v[1..][k - 1..] == v[k..];
  }

  lemma {:induction false} RunStartsSkip(v: seq<real>, k: nat)
    requires k <= |v|
    requires forall i :: 0 <= i < k ==> v[i] > 0.0
    requires k < |v| ==> v[k] <= 0.0
    ensures RunStarts(v, true) == RunStarts(v[k..], false)
    decreases k
  {
    if k > 0 {
      RunStartsSkip(v[1..], k - 1);
      assert v[1..][k - 1..] == v[k..];
    } else if v != [] {
      assert v[k..] == v;
    }
  }

  /** The run durations add up to the sum of the positive values. */
  lemma {:induction false} RunSumsTotal(v: seq<real>)
    ensures Sum(RunSums(v)) == Sum(Positives(v))
    decreases |v|
  {
    if v != [] {
      if v[0] <= 0.0 {
        RunSumsTotal(v[1..]);
      } else {
        var k := PositivePrefix(v);
        RunSumsTotal(v[k..]);
        PositivesOfPositivePrefix(v, k);
        SumCons(Sum(v[..k]), RunSums(v[k..]));
        SumAppend(v[..k], Positives(v[k..]));
      }
    }
  }

  // ---------------------------------------------------------------------
  // The scan of the source, proved to produce the runs.

  /** The durations of the runs of `w`, when `cur` is the duration of a run
      that is still open just before `w`: that run absorbs the first run of
      `w` when `w` starts positive. */
  function PendingRuns(cur: real, w: seq<real>): seq<real> {
    var ds := RunSums(w);
    if cur <= 0.0 then ds
    else if |w| > 0 && w[0] > 0.0 then
      assert |ds| > 0;
      [cur + ds[0]] + ds[1..]
    else [cur] + ds
  }

  function Durations(ops: seq<Opening>): (ds: seq<real>)
    ensures |ds| == |ops|
  {
    seq(|ops|, i requires 0 <= i < |ops| => ops[i].durationSeconds)
  }

  /** One positive reading taken by the scan extends the open run. */
  lemma PendingRunsGrow(cur: real, w: seq<real>)
    requires cur >= 0.0
    requires |w| > 0 && w[0] > 0.0
    ensures PendingRuns(cur + w[0], w[1..]) == PendingRuns(cur, w)
  {
    if |w| > 1 && w[1] > 0.0 {
      PendingRunsGrowInside(cur, w);
    } else {
      PendingRunsGrowLast(cur, w);
    }
  }

  /** The reading after the positive one is positive too: the run goes on. */
  lemma PendingRunsGrowInside(cur: real, w: seq<real>)
    requires cur >= 0.0
    requires |w| > 1 && w[0] > 0.0 && w[1] > 0.0
    ensures PendingRuns(cur + w[0], w[1..]) == PendingRuns(cur, w)
  {
    var k := PositivePrefix(w);
    HeadRun(w, k);
    GrowInsideRun(w, k);
    var total := Sum(w[1..][..k - 1]);
    var later := RunSums(w[k..]);
    PendingRunsOfHead(cur + w[0], w[1..], total, later);
    PendingRunsOfHead(cur, w, w[0] + total, later);
  }

  /** The positive reading is the last of its run. */
  lemma PendingRunsGrowLast(cur: real, w: seq<real>)
    requires cur >= 0.0
    requires |w| > 0 && w[0] > 0.0
    requires |w| == 1 || w[1] <= 0.0
    ensures PendingRuns(cur + w[0], w[1..]) == PendingRuns(cur, w)
  {
    var k := PositivePrefix(w);
    assert k == 1;
    HeadRun(w, k);
    assert w[1..][..0] == [];
    PendingRunsOfHead(cur, w, w[0], RunSums(w[1..]));
  }

  /** With the open run absorbing the first run of `w`. */
  lemma PendingRunsOfHead(cur: real, w: seq<real>, first: real, later: seq<real>)
    requires cur >= 0.0 && |w| > 0 && w[0] > 0.0
    requires RunSums(w) == [first] + later
    ensures PendingRuns(cur, w) == [cur + first] + later
  {
    assert ([first] + later)[1..] == later;
  }

  lemma {:induction false} HeadRun(w: seq<real>, k: nat)
    requires |w| > 0 && w[0] > 0.0
    requires k == PositivePrefix(w)
    ensures 1 <= k <= |w|
    ensures RunSums(w) == [w[0] + Sum(w[1..][..k - 1])] + RunSums(w[k..])
  {
    assert w[..k] == [w[0]] + w[1..][..k - 1];
    SumCons(w[0], w[1..][..k - 1]);
  }

  lemma {:induction false} GrowInsideRun(w: seq<real>, k: nat)
    requires |w| > 1 && w[0] > 0.0 && w[1] > 0.0
    requires k == PositivePrefix(w)
    ensures RunSums(w[1..]) == [Sum(w[1..][..k - 1])] + RunSums(w[k..])
  {
    var u := w[1..];
    assert PositivePrefix(u) == k - 1;
    assert u[k - 1..] == w[k..];
  }

  /** A reading that is not positive closes the open run, if any. */
  lemma {:induction false} PendingRunsClose(cur: real, w: seq<real>)
    requires cur >= 0.0
    requires |w| > 0 && w[0] <= 0.0
    ensures cur > 0.0 ==> [cur] + PendingRuns(0.0, w[1..]) == PendingRuns(cur, w)
    ensures cur <= 0.0 ==> PendingRuns(0.0, w[1..]) == PendingRuns(cur, w)
  {
    assert RunSums(w) == RunSums(w[1..]);
  }

  /** Closes one opening: it gets the next number (`opening_count + 1`,
      and the count always equals the number of openings) and the given
      duration. */
  function AppendOpening(openings: seq<Opening>, duration: real): (r: seq<Opening>)
    ensures Numbered(openings) ==> Numbered(r)
    ensures Durations(r) == Durations(openings) + [duration]
  {
    var r := openings + [Opening(|openings| + 1, duration)];
    assert Durations(r) == Durations(openings) + [duration];
    r
  }

  /** The openings are numbered 1, 2, ... in order. */
  predicate Numbered(openings: seq<Opening>) {
    forall j :: 0 <= j < |openings| ==> openings[j].id == j + 1
  }

  /** The loop of the source over the remaining readings `values`, with the
      openings closed so far and the duration `current` of the opening in
      progress: a positive reading extends the current opening; any other
      reading closes it (when it is non-empty) and starts afresh; at the end an
      opening still in progress is closed too. */
  function Scan(values: seq<real>, openings: seq<Opening>, current: real): seq<Opening>
    decreases |values|
  {
    if values == [] then
      if current > 0.0 then AppendOpening(openings, current) else openings
    else if values[0] > 0.0 then
      Scan(values[1..], openings, current + values[0])
    else if current > 0.0 then
      Scan(values[1..], AppendOpening(openings, current), 0.0)
    else
      Scan(values[1..], openings, 0.0)
  }

  /** The scan closes exactly the pending runs, keeping the numbering. */
  lemma {:induction false} ScanClosesPendingRuns(values: seq<real>, openings: seq<Opening>, current: real)
    requires current >= 0.0
    requires Numbered(openings)
    ensures Numbered(Scan(values, openings, current))
    ensures Durations(Scan(values, openings, current)) == Durations(openings) + PendingRuns(current, values)
    decreases |values|
  {
    if values == [] {
      assert RunSums(values) == [];
    } else if values[0] > 0.0 {
      ScanClosesPendingRuns(values[1..], openings, current + values[0]);
      ScanGrowStep(values, openings, current);
    } else if current > 0.0 {
      ScanClosesPendingRuns(values[1..], AppendOpening(openings, current), 0.0);
      ScanCloseStep(values, openings, current);
    } else {
      ScanClosesPendingRuns(values[1..], openings, 0.0);
      PendingRunsClose(current, values);
    }
  }

  /** A positive reading: the scan goes on with a longer open run. */
  lemma ScanGrowStep(values: seq<real>, openings: seq<Opening>, current: real)
    requires current >= 0.0 && |values| > 0 && values[0] > 0.0
    requires Durations(Scan(values[1..], openings, current + values[0]))
      == Durations(openings) + PendingRuns(current + values[0], values[1..])
    ensures Durations(Scan(values, openings, current)) == Durations(openings) + PendingRuns(current, values)
  {
    PendingRunsGrow(current, values);
  }

  /** A reading that is not positive after an open run: the run is closed
      as the next opening and the scan starts afresh. */
  lemma ScanCloseStep(values: seq<real>, openings: seq<Opening>, current: real)
    requires current > 0.0 && |values| > 0 && values[0] <= 0.0
    requires Durations(Scan(values[1..], AppendOpening(openings, current), 0.0))
      == Durations(AppendOpening(openings, current)) + PendingRuns(0.0, values[1..])
    ensures Durations(Scan(values, openings, current)) == Durations(openings) + PendingRuns(current, values)
  {
    PendingRunsClose(current, values);
    var later := PendingRuns(0.0, values[1..]);
    assert Durations(openings) + [current] + later == Durations(openings) + ([current] + later);
  }

  /** The openings of a day's readings are its maximal runs of positive
      readings, numbered 1, 2, ... in order, each lasting the sum of its run. */
  function Openings(values: seq<real>): (openings: seq<Opening>)
    ensures Numbered(openings)
    ensures Durations(openings) == RunSums(values)
  {
    ScanClosesPendingRuns(values, [], 0.0);
    Scan(values, [], 0.0)
  }

  // ---------------------------------------------------------------------
  // The endpoint.

  /** The error of a date that is not an ISO date. */
  const BadDate := HttpError(400, "Invalid date format. Please use YYYY-MM-DD.")

  /** The error of a day without records. */
  function NoRecords(serialNumber: string, date: string): HttpError {
    HttpError(404, "No records found for device '" + serialNumber + "' on " + date + ".")
  }

  /** `get_door_opening_stats`. `dateIsIso` says whether the `date` query
      parameter parses as an ISO date; `stamps` are the device's records of
      that day in time order. An unparseable date is a 400 and a day without
      records a 404; any other request succeeds and echoes the serial number
      and the date. */
  function GetDoorOpeningStats(
    serialNumber: string, date: string, dateIsIso: bool,
    stamps: seq<Stamp>, parseFloat: string -> Option<real>): (r: Result<DoorStats, HttpError>)
    ensures !dateIsIso ==> r == Err(BadDate)
    ensures dateIsIso && stamps == [] ==> r == Err(NoRecords(serialNumber, date))
    ensures dateIsIso && stamps != [] ==>
      r.Ok? && r.value.serialNumber == serialNumber && r.value.date == date
  {
    if !dateIsIso then Err(BadDate)
    else if stamps == [] then Err(NoRecords(serialNumber, date))
    else
      var openings := Openings(DailyValues(stamps, parseFloat));
      var count := |openings|;
      var total := Sum(Durations(openings));
      var average := if count > 0 then total / count as real else 0.0;
      Ok(DoorStats(serialNumber, date, count, average, openings))
  }

  /** On success the openings correspond one to one, in order, with the
      maximal runs of positive readings: `total_openings` is their number (the
      number of places where a run starts), they are numbered 1..n, each lasts
      the sum of its run and so is positive, together they last as long as all
      positive readings, and the average is that total over the count, or 0
      when there is no opening. */
  lemma {:induction false} DoorOpeningsAreRuns(
    serialNumber: string, date: string, stamps: seq<Stamp>, parseFloat: string -> Option<real>)
    requires stamps != []
    ensures
      var v := DailyValues(stamps, parseFloat);
      var s := GetDoorOpeningStats(serialNumber, date, true, stamps, parseFloat).value;
      && s.totalOpenings == |s.openings| == |Runs(v)| == RunStarts(v, false)
      && (forall i :: 0 <= i < |s.openings| ==> s.openings[i].id == i + 1)
      && (forall i :: 0 <= i < |s.openings| ==> s.openings[i].durationSeconds == Sum(Runs(v)[i]) > 0.0)
      && Sum(Durations(s.openings)) == Sum(Positives(v))
      && s.averageDurationSeconds ==
           (if s.totalOpenings > 0 then Sum(Positives(v)) / s.totalOpenings as real else 0.0)
  {
    var v := DailyValues(stamps, parseFloat);
    var openings := Openings(v);
    RunsCount(v);
    RunSumsTotal(v);
    RunSumsAreRunDurations(v);
    assert forall i :: 0 <= i < |openings| ==> openings[i].durationSeconds == Durations(openings)[i];
  }

  /** Records that exist but carry no readable door value give no openings
      and an average of 0, not an error. */
  lemma {:induction false} UnreadableRecordsGiveNoOpenings(
    serialNumber: string, date: string, stamps: seq<Stamp>, parseFloat: string -> Option<real>)
    requires stamps != []
    requires forall i :: 0 <= i < |stamps| ==> DoorValue(stamps[i], parseFloat).None?
    ensures GetDoorOpeningStats(serialNumber, date, true, stamps, parseFloat)
            == Ok(DoorStats(serialNumber, date, 0, 0.0, []))
  {
    var xs := seq(|stamps|, i requires 0 <= i < |stamps| => DoorValue(stamps[i], parseFloat));
    assert forall i :: 0 <= i < |xs| ==> xs[i].None?;
    assert DailyValues(stamps, parseFloat) == [];
    assert Openings([]) == Scan([], [], 0.0) == [];
  }
}

=== FILE: emissions.dfy ===
/** The tiered CO2 emission formula. The same three-tier schedule is used
    twice, with different thresholds: for a client's annual energy in
    `get_clients_annual_co2` and for a device's daily energy in
    `calculate_monthly_co2_task`. Energy up to the first threshold is charged
    at the first factor, energy between the thresholds at the second, and the
    rest at the third. */
module Emissions {

  /** A schedule: thresholds `b1 <= b2` and the factor of each tier. */
  datatype Tiers = Tiers(b1: real, b2: real, f1: real, f2: real, f3: real)

  /** The schedule of the annual report: 55 and 250, factors 0.0068, 0.0013
      and 0.0010. */
  const Annual := Tiers(55.0, 250.0, 0.0068, 0.0013, 0.0010)

  /** The schedule of the daily task: 0.1505817 and 0.684462 kWh, factors
      0.0068, 0.0013 and 0.001. */
  const Daily := Tiers(0.1505817, 0.684462, 0.0068, 0.0013, 0.001)

  /** A sensible schedule: ordered thresholds, non-negative factors, and each
      tier no dearer than the one below it. */
  predicate Decreasing(t: Tiers) {
    0.0 <= t.b1 <= t.b2 && t.f1 >= t.f2 >= t.f3 >= 0.0
  }

  /** The three branches of the source's `if / elif / else`. */
  function Lower(t: Tiers, energy: real): real {
    energy * t.f1
  }

  function Middle(t: Tiers, energy: real): real {
    (energy - t.b1) * t.f2 + t.b1 * t.f1
  }

  function Upper(t: Tiers, energy: real): real {
    (energy - t.b2) * t.f3 + t.b1 * t.f1 + (t.b2 - t.b1) * t.f2
  }

  /** The emissions for an energy: the first branch up to and including the
      first threshold, the second up to and including the second threshold,
      the third above it. */
  function Emission(t: Tiers, energy: real): real {
    if energy <= t.b1 then Lower(t, energy)
    else if energy <= t.b2 then Middle(t, energy)
    else Upper(t, energy)
  }

  /** Adjacent branches agree at the threshold between them, so the formula
      has no jumps. */
  lemma BranchesAgree(t: Tiers)
    ensures Lower(t, t.b1) == Middle(t, t.b1)
    ensures Middle(t, t.b2) == Upper(t, t.b2)
  {
  }

  function Min(a: real, b: real): real { if a <= b then a else b }
  function Max(a: real, b: real): real { if a <= b then b else a }

  /** The independent reading of the schedule: the part of the energy that
      falls in each tier, times that tier's factor. */
  function Marginal(t: Tiers, energy: real): real {
    Min(energy, t.b1) * t.f1
    + Min(Max(energy - t.b1, 0.0), t.b2 - t.b1) * t.f2
    + Max(energy - t.b2, 0.0) * t.f3
  }

  /** With ordered thresholds, the branch formula is the marginal schedule
      for every energy, negative ones included. */
  lemma EmissionIsMarginal(t: Tiers, energy: real)
    requires t.b1 <= t.b2
    ensures Emission(t, energy) == Marginal(t, energy)
  {
  }

  lemma MulMono(a: real, b: real, f: real)
    requires a <= b && f >= 0.0
    ensures a * f <= b * f
  {
  }

  /** More energy never means fewer emissions. */
  lemma EmissionMonotone(t: Tiers, x: real, y: real)
    requires t.b1 <= t.b2 && t.f1 >= 0.0 && t.f2 >= 0.0 && t.f3 >= 0.0
    requires x <= y
    ensures Emission(t, x) <= Emission(t, y)
  {
    EmissionIsMarginal(t, x);
    EmissionIsMarginal(t, y);
    MarginalMonotone(t, x, y);
  }

  lemma MarginalMonotone(t: Tiers, x: real, y: real)
    requires t.b1 <= t.b2 && t.f1 >= 0.0 && t.f2 >= 0.0 && t.f3 >= 0.0
    requires x <= y
    ensures Marginal(t, x) <= Marginal(t, y)
  {
    TierPartsMonotone(t, x, y);
    WeightedMonotone(
      Min(x, t.b1), Min(Max(x - t.b1, 0.0), t.b2 - t.b1), Max(x - t.b2, 0.0),
      Min(y, t.b1), Min(Max(y - t.b1, 0.0), t.b2 - t.b1), Max(y - t.b2, 0.0),
      t.f1, t.f2, t.f3);
  }

  /** The part of the energy in each tier grows with the energy. */
  lemma TierPartsMonotone(t: Tiers, x: real, y: real)
    requires t.b1 <= t.b2 && x <= y
    ensures Min(x, t.b1) <= Min(y, t.b1)
    ensures Min(Max(x - t.b1, 0.0), t.b2 - t.b1) <= Min(Max(y - t.b1, 0.0), t.b2 - t.b1)
    ensures Max(x - t.b2, 0.0) <= Max(y - t.b2, 0.0)
  {
  }

  lemma WeightedMonotone(p1: real, p2: real, p3: real, q1: real, q2: real, q3: real, f1: real, f2: real, f3: real)
    requires p1 <= q1 && p2 <= q2 && p3 <= q3
    requires f1 >= 0.0 && f2 >= 0.0 && f3 >= 0.0
    ensures p1 * f1 + p2 * f2 + p3 * f3 <= q1 * f1 + q2 * f2 + q3 * f3
  {
    MulMono(p1, q1, f1);
    MulMono(p2, q2, f2);
    MulMono(p3, q3, f3);
  }

  /** Energy split into three non-negative parts, each charged at its own
      factor, costs between the whole charged at the last factor and the
      whole charged at the first. */
  lemma PartsBounds(p1: real, p2: real, p3: real, f1: real, f2: real, f3: real)
    requires p1 >= 0.0 && p2 >= 0.0 && p3 >= 0.0
    requires f1 >= f2 >= f3 >= 0.0
    ensures (p1 + p2 + p3) * f3 <= p1 * f1 + p2 * f2 + p3 * f3 <= (p1 + p2 + p3) * f1
  {
    MulMono(f3, f1, p1);
    MulMono(f3, f2, p2);
    MulMono(f2, f1, p2);
    MulMono(f3, f1, p3);
    Distribute(p1, p2, p3, f1);
    Distribute(p1, p2, p3, f3);
  }

  lemma Distribute(a: real, b: real, c: real, f: real)
    ensures (a + b + c) * f == a * f + b * f + c * f
  {
  }

  /** For a decreasing schedule and non-negative energy the emissions lie
      between the energy charged entirely at the last factor and the energy
      charged entirely at the first; in particular they are non-negative. */
  lemma EmissionBounds(t: Tiers, energy: real)
    requires Decreasing(t) && energy >= 0.0
    ensures energy * t.f3 <= Emission(t, energy) <= energy * t.f1
    ensures Emission(t, energy) >= 0.0
  {
    EmissionIsMarginal(t, energy);
    var p1 := Min(energy, t.b1);
    var p2 := Min(Max(energy - t.b1, 0.0), t.b2 - t.b1);
    var p3 := Max(energy - t.b2, 0.0);
    assert p1 + p2 + p3 == energy;
    assert p1 >= 0.0 && p2 >= 0.0 && p3 >= 0.0;
    assert Marginal(t, energy) == p1 * t.f1 + p2 * t.f2 + p3 * t.f3;
    PartsBounds(p1, p2, p3, t.f1, t.f2, t.f3);
    MulMono(0.0, energy, t.f3);
  }

  /** Both schedules of the system are decreasing. */
  lemma SchedulesDecreasing()
    ensures Decreasing(Annual) && Decreasing(Daily)
  {
  }

  /** The annual report's emissions for a year's total energy, tier by tier,
      and its bounds. */
  function AnnualCO2(energy: real): (co2: real)
    ensures energy <= 55.0 ==> co2 == energy * 0.0068
    ensures 55.0 < energy <= 250.0 ==> co2 == (energy - 55.0) * 0.0013 + 55.0 * 0.0068
    ensures 250.0 < energy ==> co2 == (energy - 250.0) * 0.0010 + 55.0 * 0.0068 + 195.0 * 0.0013
    ensures energy >= 0.0 ==> energy * 0.0010 <= co2 <= energy * 0.0068
  {
    assert energy >= 0.0 ==> energy * 0.0010 <= Emission(Annual, energy) <= energy * 0.0068 by {
      SchedulesDecreasing();
      if energy >= 0.0 { EmissionBounds(Annual, energy); }
    }
    Emission(Annual, energy)
  }

  /** The daily task's emissions for a day's energy in kWh, tier by tier,
      and its bounds. */
  function DailyCO2(energyKwh: real): (co2: real)
    ensures energyKwh <= 0.1505817 ==> co2 == energyKwh * 0.0068
    ensures 0.1505817 < energyKwh <= 0.684462 ==>
      co2 == (energyKwh - 0.1505817) * 0.0013 + 0.1505817 * 0.0068
    ensures 0.684462 < energyKwh ==>
      co2 == (energyKwh - 0.684462) * 0.001 + 0.1505817 * 0.0068 + (0.684462 - 0.1505817) * 0.0013
    ensures energyKwh >= 0.0 ==> energyKwh * 0.001 <= co2 <= energyKwh * 0.0068
  {
    assert energyKwh >= 0.0 ==> energyKwh * 0.001 <= Emission(Daily, energyKwh) <= energyKwh * 0.0068 by {
      SchedulesDecreasing();
      if energyKwh >= 0.0 { EmissionBounds(Daily, energyKwh); }
    }
    Emission(Daily, energyKwh)
  }

  /** Both reports' emissions are continuous at their thresholds and never
      decrease as the energy grows. */
  lemma ReportsContinuousAndMonotone(x: real, y: real)
    ensures AnnualCO2(55.0) == 0.374 && Upper(Annual, 250.0) == AnnualCO2(250.0) == 0.6275
    ensures Middle(Annual, 55.0) == AnnualCO2(55.0)
    ensures Middle(Daily, 0.1505817) == DailyCO2(0.1505817)
    ensures Upper(Daily, 0.684462) == DailyCO2(0.684462)
    ensures x <= y ==> AnnualCO2(x) <= AnnualCO2(y) && DailyCO2(x) <= DailyCO2(y)
  {
    BranchesAgree(Annual);
    BranchesAgree(Daily);
    if x <= y {
      EmissionMonotone(Annual, x, y);
      EmissionMonotone(Daily, x, y);
    }
  }
}

=== FILE: js_text.dfy ===
/** The JavaScript string handling of the identifier box on the device
    analytics page: `String.prototype.trim()` and
    `split(/[\s,]+/)`. */
module JsText {
  import opened Common

  /** ECMAScript WhiteSpace and LineTerminator code points: what `trim()`
      strips and what the regular-expression class `\s` matches. */
  predicate IsWhite(c: char) {
    || c == '\t' || c == '\n' || c == '\U{000B}' || c == '\U{000C}' || c == '\r'
    || c == ' ' || c == '\U{00A0}' || c == '\U{1680}'
    || ('\U{2000}' <= c <= '\U{200A}')
    || c == '\U{2028}' || c == '\U{2029}' || c == '\U{202F}' || c == '\U{205F}'
    || c == '\U{3000}' || c == '\U{FEFF}'
  }

  /** Every character of `s` is white space (true of the empty string). */
  predicate Blank(s: string) {
    forall k :: 0 <= k < |s| ==> IsWhite(s[k])
  }

  /** Number of white-space characters at the front of `s`. */
  function LeadingWhite(s: string): (k: nat)
    ensures k <= |s|
    ensures Blank(s[..k])
    ensures k < |s| ==> !IsWhite(s[k])
    decreases |s|
  {
    if s != [] && IsWhite(s[0]) then
      var k := 1 + LeadingWhite(s[1..]);
      assert forall m :: 1 <= m < k ==> s[..k][m] == s[1..][..k - 1][m - 1];
      k
    else 0
  }

  /** Number of white-space characters at the end of `s`. */
  function TrailingWhite(s: string): (k: nat)
    ensures k <= |s|
    ensures Blank(s[|s| - k..])
    ensures k < |s| ==> !IsWhite(s[|s| - 1 - k])
    decreases |s|
  {
    if s != [] && IsWhite(s[|s| - 1]) then
      var t := s[..|s| - 1];
      var k := 1 + TrailingWhite(t);
      assert forall m :: |s| - k <= m < |s| - 1 ==> s[m] == t[m];
      k
    else 0
  }

  /** `s.trim()`: `s` without its leading and trailing white space. The
      result is the piece of `s` starting after its leading white space; it
      neither starts nor ends with white space, everything cut away is white
      space, and the result is empty exactly when `s` is blank. */
  function Trim(s: string): (r: string)
    ensures |r| <= |s|
    ensures |r| > 0 ==> !IsWhite(r[0]) && !IsWhite(r[|r| - 1])
    ensures r == [] <==> Blank(s)
    ensures LeadingWhite(s) + |r| <= |s|
    ensures s[LeadingWhite(s)..LeadingWhite(s) + |r|] == r
    ensures Blank(s[LeadingWhite(s) + |r|..])
  {
    var i := LeadingWhite(s);
    var t := s[i..];
    var j := TrailingWhite(t);
    var r := t[..|t| - j];
    assert s[i..i + |r|] == r;
    assert s[i + |r|..] == t[|t| - j..];
    assert |t| > 0 ==> t[0] == s[i];
    assert j == |t| ==> t[|t| - j..] == t;
    assert r == [] ==> i == |s|;
    assert i == |s| ==> s[..i] == s;
    assert r != [] ==> r[0] == s[i] && r[|r| - 1] == t[|t| - 1 - j];
    r
  }

  /** The text is its trimmed part with blank text on either side. */
  lemma TrimParts(s: string) returns (front: string, back: string)
    ensures s == front + Trim(s) + back
    ensures Blank(front) && Blank(back)
  {
    var r := Trim(s);
    var i := LeadingWhite(s);
    front, back := s[..i], s[i + |r|..];
    Slices3(s, i, i + |r|);
  }

  // ---------------------------------------------------------------------
  // `split(/[\s,]+/)`

  /** A character of the class `[\s,]`. */
  predicate IsSep(c: char) {
    IsWhite(c) || c == ','
  }

  predicate NoSep(s: string) {
    forall k :: 0 <= k < |s| ==> !IsSep(s[k])
  }

  /** Index of the first separator in `s`, or `|s|` when there is none. */
  function FirstSep(s: string): (k: nat)
    ensures k <= |s|
    ensures NoSep(s[..k])
    ensures k < |s| ==> IsSep(s[k])
    decreases |s|
  {
    if s == [] then 0
    else if IsSep(s[0]) then 0
    else
      var k := 1 + FirstSep(s[1..]);
      assert forall m :: 1 <= m < k ==> s[..k][m] == s[1..][..k - 1][m - 1];
      k
  }

  /** End of the run of separators starting at `k`: the first index at or
      after `k` that is not a separator, or `|s|`. */
  function SepRunEnd(s: string, k: nat): (j: nat)
    requires k <= |s|
    ensures k <= j <= |s|
    ensures forall m :: k <= m < j ==> IsSep(s[m])
    ensures j < |s| ==> !IsSep(s[j])
    decreases |s| - k
  {
    if k < |s| && IsSep(s[k]) then SepRunEnd(s, k + 1) else k
  }

  /** The characters of `s` that are not separators, in order. */
  function RemoveSeps(s: string): string
    decreases |s|
  {
    if s == [] then []
    else (if IsSep(s[0]) then [] else [s[0]]) + RemoveSeps(s[1..])
  }

  lemma {:induction false} RemoveSepsAppend(a: string, b: string)
    ensures RemoveSeps(a + b) == RemoveSeps(a) + RemoveSeps(b)
    decreases |a|
  {
    if a == [] {
      assert a + b == b;
    } else {
      assert (a + b)[1..] == a[1..] + b;
      RemoveSepsAppend(a[1..], b);
    }
  }

  lemma {:induction false} RemoveSepsOfNoSep(a: string)
    requires NoSep(a)
    ensures RemoveSeps(a) == a
    decreases |a|
  {
    if a != [] {
      RemoveSepsOfNoSep(a[1..]);
    }
  }

  lemma {:induction false} RemoveSepsOfSeps(a: string)
    requires forall k :: 0 <= k < |a| ==> IsSep(a[k])
    ensures RemoveSeps(a) == []
    decreases |a|
  {
    if a != [] {
      RemoveSepsOfSeps(a[1..]);
    }
  }

  /** White space is a separator, so a blank text has nothing left. */
  lemma RemoveSepsOfBlank(a: string)
    requires Blank(a)
    ensures RemoveSeps(a) == []
  {
    assert forall k :: 0 <= k < |a| ==> IsSep(a[k]);
    RemoveSepsOfSeps(a);
  }

  /** A run of separators: non-empty, and nothing but white space and
      commas. */
  predicate SepRun(r: string) {
    |r| > 0 && forall k :: 0 <= k < |r| ==> IsSep(r[k])
  }

  /** The pieces `ts` with the runs `seps` between them:
      `ts[0] + seps[0] + ts[1] + … + seps[n - 1] + ts[n]`. */
  function Interleave(ts: seq<string>, seps: seq<string>): string
    requires |ts| == |seps| + 1
    decreases |seps|
  {
    if seps == [] then ts[0] else ts[0] + seps[0] + Interleave(ts[1..], seps[1..])
  }

  /** The maximal runs of separators in `s`, in order. */
  function SepRuns(s: string): (rs: seq<string>)
    ensures forall i :: 0 <= i < |rs| ==> SepRun(rs[i])
    decreases |s|
  {
    var k := FirstSep(s);
    if k == |s| then []
    else
      var j := SepRunEnd(s, k + 1);
      var rest := SepRuns(s[j..]);
      assert SepRun(s[k..j]) by {
        forall m | 0 <= m < j - k ensures IsSep(s[k..j][m]) {
          assert s[k..j][m] == s[k + m];
        }
      }
      assert forall i :: 1 <= i < |[s[k..j]] + rest| ==> ([s[k..j]] + rest)[i] == rest[i - 1];
      [s[k..j]] + rest
  }

  /** `s.split(/[\s,]+/)`: the pieces of `s` between its maximal runs of
      white space and commas. `s` is exactly the pieces with those runs
      between them, and no piece contains a separator, so the pieces are cut
      exactly at the runs. Only the first and the last piece can be empty
      (the first is non-empty when `s` starts with a non-separator), and the
      pieces together hold exactly the non-separator characters of `s`, in
      order. */
  function Tokenize(s: string): (ts: seq<string>)
    ensures |ts| == |SepRuns(s)| + 1
    ensures Interleave(ts, SepRuns(s)) == s
    ensures s == [] ==> ts == [[]]
    ensures forall i :: 0 <= i < |ts| ==> NoSep(ts[i])
    ensures forall i :: 0 < i < |ts| - 1 ==> ts[i] != []
    ensures |s| > 0 && !IsSep(s[0]) ==> ts[0] != []
    ensures Flatten(ts) == RemoveSeps(s)
    decreases |s|
  {
    var k := FirstSep(s);
    if k == |s| then
      assert s[..k] == s;
      RemoveSepsOfNoSep(s);
      assert Flatten([s]) == s + Flatten([]);
      [s]
    else
      var j := SepRunEnd(s, k + 1);
      var rest := Tokenize(s[j..]);
      TokenizeStep(s, k, j, rest);
      TokenizeStepRuns(s, k, j, rest);
      [s[..k]] + rest
  }

  /** One step of `Tokenize` puts the first piece and the first run in
      front of the remainder. */
  lemma TokenizeStepRuns(s: string, k: nat, j: nat, rest: seq<string>)
    requires k == FirstSep(s) && k < |s| && j == SepRunEnd(s, k + 1)
    requires |rest| == |SepRuns(s[j..])| + 1
    requires Interleave(rest, SepRuns(s[j..])) == s[j..]
    ensures |[s[..k]] + rest| == |SepRuns(s)| + 1
    ensures Interleave([s[..k]] + rest, SepRuns(s)) == s
  {
    var runs := SepRuns(s[j..]);
    SepRunsUnfold(s);
    InterleaveCons(s[..k], s[k..j], rest, runs);
    Slices3(s, k, j);
  }

  /** `SepRuns` takes the first run off the front. */
  lemma SepRunsUnfold(s: string)
    requires FirstSep(s) < |s|
    ensures var k := FirstSep(s); var j := SepRunEnd(s, k + 1);
      SepRuns(s) == [s[k..j]] + SepRuns(s[j..])
  {
  }

  /** `Tokenize` takes the first piece off the front. */
  lemma TokenizeUnfold(s: string)
    requires FirstSep(s) < |s|
    ensures var k := FirstSep(s); var j := SepRunEnd(s, k + 1);
      Tokenize(s) == [s[..k]] + Tokenize(s[j..])
  {
  }

  lemma InterleaveCons(t: string, r: string, ts: seq<string>, seps: seq<string>)
    requires |ts| == |seps| + 1
    ensures Interleave([t] + ts, [r] + seps) == t + r + Interleave(ts, seps)
  {
    assert ([t] + ts)[1..] == ts;
    assert ([r] + seps)[1..] == seps;
  }

  /** The bookkeeping of one step of `Tokenize`: the first piece, then the
      separator run, then the pieces of the remainder. */
  lemma TokenizeStep(s: string, k: nat, j: nat, rest: seq<string>)
    requires k < j <= |s|
    requires NoSep(s[..k])
    requires forall m :: k <= m < j ==> IsSep(s[m])
    requires j < |s| ==> !IsSep(s[j])
    requires |rest| >= 1
    requires s[j..] == [] ==> rest == [[]]
    requires |s[j..]| > 0 && !IsSep(s[j..][0]) ==> rest[0] != []
    requires forall i :: 0 < i < |rest| - 1 ==> rest[i] != []
    requires Flatten(rest) == RemoveSeps(s[j..])
    ensures forall i :: 0 < i < |[s[..k]] + rest| - 1 ==> ([s[..k]] + rest)[i] != []
    ensures Flatten([s[..k]] + rest) == RemoveSeps(s)
  {
    var ts := [s[..k]] + rest;
    assert forall i :: 0 < i < |ts| ==> ts[i] == rest[i - 1];
    assert ts[1..] == rest;
    assert Flatten(ts) == s[..k] + Flatten(rest);
    PieceThenSeps(s, k, j);
  }

  /** A separator-free piece followed by a run of separators leaves the
      piece and whatever the remainder leaves. */
  lemma PieceThenSeps(s: string, k: nat, j: nat)
    requires k <= j <= |s|
    requires NoSep(s[..k])
    requires forall m :: k <= m < j ==> IsSep(s[m])
    ensures RemoveSeps(s) == s[..k] + RemoveSeps(s[j..])
  {
    var run := s[k..j];
    assert forall m :: 0 <= m < |run| ==> IsSep(run[m]) by {
      forall m | 0 <= m < |run| ensures IsSep(run[m]) {
        assert run[m] == s[k + m];
      }
    }
    Slices3(s, k, j);
    PieceRunRemainder(s[..k], run, s[j..]);
  }

  lemma PieceRunRemainder(piece: string, run: string, remainder: string)
    requires NoSep(piece)
    requires forall m :: 0 <= m < |run| ==> IsSep(run[m])
    ensures RemoveSeps(piece + run + remainder) == piece + RemoveSeps(remainder)
  {
    assert piece + run + remainder == piece + (run + remainder);
    RemoveSepsAfterPiece(piece, run + remainder);
    RemoveSepsAfterRun(run, remainder);
  }

  lemma {:induction false} RemoveSepsAfterPiece(piece: string, t: string)
    requires NoSep(piece)
    ensures RemoveSeps(piece + t) == piece + RemoveSeps(t)
    decreases |piece|
  {
    if piece == [] {
      assert piece + t == t;
    } else {
      assert (piece + t)[1..] == piece[1..] + t;
      RemoveSepsAfterPiece(piece[1..], t);
      assert piece == [piece[0]] + piece[1..];
    }
  }

  lemma {:induction false} RemoveSepsAfterRun(run: string, t: string)
    requires forall m :: 0 <= m < |run| ==> IsSep(run[m])
    ensures RemoveSeps(run + t) == RemoveSeps(t)
    decreases |run|
  {
    if run == [] {
      assert run + t == t;
    } else {
      assert (run + t)[1..] == run[1..] + t;
      RemoveSepsAfterRun(run[1..], t);
    }
  }

  /** Splitting undoes any interleaving: pieces without separators, none
      empty but possibly the first and the last, with runs of separators of
      any length between them, split back into exactly those pieces. With
      `Tokenize`'s own contract this says that `Tokenize(s) == ts` holds
      exactly when `s` is `ts` interleaved with runs. */
  lemma {:induction false} TokenizeInterleave(ts: seq<string>, seps: seq<string>)
    requires |ts| == |seps| + 1
    requires forall i :: 0 <= i < |ts| ==> NoSep(ts[i])
    requires forall i :: 0 < i < |ts| - 1 ==> ts[i] != []
    requires forall i :: 0 <= i < |seps| ==> SepRun(seps[i])
    ensures Tokenize(Interleave(ts, seps)) == ts
    decreases |seps|
  {
    if seps == [] {
      var s := ts[0];
      assert NoSep(s);
      assert FirstSep(s) == |s|;
      assert s[..|s|] == s;
    } else {
      var rest := Interleave(ts[1..], seps[1..]);
      TokenizeInterleave(ts[1..], seps[1..]);
      InterleaveStart(ts[1..], seps[1..]);
      TokenizeAfterRun(ts[0], seps[0], rest);
      assert [ts[0]] + ts[1..] == ts;
    }
  }

  /** An interleaving starts with its first piece's first character. */
  lemma InterleaveStart(ts: seq<string>, seps: seq<string>)
    requires |ts| == |seps| + 1
    requires NoSep(ts[0])
    requires ts[0] != [] || seps == []
    ensures Interleave(ts, seps) == [] || !IsSep(Interleave(ts, seps)[0])
  {
    if seps != [] {
      assert Interleave(ts, seps)[0] == ts[0][0];
    }
  }

  /** An interleaving whose last piece is non-empty ends with that piece's
      last character. */
  lemma {:induction false} InterleaveLast(ts: seq<string>, seps: seq<string>)
    requires |ts| == |seps| + 1
    ensures var s, t := Interleave(ts, seps), ts[|ts| - 1];
      t != [] ==> |s| > 0 && s[|s| - 1] == t[|t| - 1]
    decreases |seps|
  {
    if seps != [] {
      InterleaveLast(ts[1..], seps[1..]);
    }
  }

  /** A separator-free piece, one run of separators and a remainder that is
      empty or starts with a non-separator split into the piece followed by
      the remainder's pieces. */
  lemma TokenizeAfterRun(f: string, run: string, rest: string)
    requires NoSep(f) && SepRun(run)
    requires rest == [] || !IsSep(rest[0])
    ensures Tokenize(f + run + rest) == [f] + Tokenize(rest)
  {
    var s := f + run + rest;
    var k, j := |f|, |f| + |run|;
    assert s == f + (run + rest);
    FirstSepAt(f, run + rest);
    RunThenRest(s, k, run, rest);
    SepRunEndAt(s, k + 1, j);
    TokenizeUnfold(s);
    assert s[..k] == f;
    assert s[j..] == rest;
  }

  /** The characters of the run, and the one after it, seen in the whole
      text. */
  lemma RunThenRest(s: string, k: nat, run: string, rest: string)
    requires k + |run| <= |s| && s[k..] == run + rest && SepRun(run)
    requires rest == [] || !IsSep(rest[0])
    ensures forall m :: k + 1 <= m < k + |run| ==> IsSep(s[m])
    ensures k + |run| < |s| ==> !IsSep(s[k + |run|])
  {
    forall m | k + 1 <= m < k + |run| ensures IsSep(s[m]) {
      assert s[m] == s[k..][m - k];
    }
    if k + |run| < |s| {
      assert s[k + |run|] == s[k..][|run|];
    }
  }

  /** The first separator of a separator-free piece followed by a text that
      starts with one is right after the piece. */
  lemma {:induction false} FirstSepAt(f: string, t: string)
    requires NoSep(f) && |t| > 0 && IsSep(t[0])
    ensures FirstSep(f + t) == |f|
    decreases |f|
  {
    if f == [] {
      assert f + t == t;
    } else {
      assert (f + t)[0] == f[0];
      assert (f + t)[1..] == f[1..] + t;
      FirstSepAt(f[1..], t);
    }
  }

  /** `SepRunEnd` stops at the first non-separator. */
  lemma {:induction false} SepRunEndAt(s: string, m: nat, j: nat)
    requires m <= j <= |s|
    requires forall x :: m <= x < j ==> IsSep(s[x])
    requires j < |s| ==> !IsSep(s[j])
    ensures SepRunEnd(s, m) == j
    decreases j - m
  {
    if m < j {
      SepRunEndAt(s, m + 1, j);
    }
  }

  /** `trim()` leaves commas in place, so a comma at either end of the input
      still yields an empty first or last identifier. */
  lemma LeadingCommaGivesEmptyToken(s: string)
    requires |s| > 0 && s[0] == ','
    ensures Tokenize(s)[0] == []
  {
    assert FirstSep(s) == 0;
  }

  lemma TrailingCommaGivesEmptyToken(s: string)
    requires |s| > 0 && s[|s| - 1] == ','
    ensures Tokenize(s)[|Tokenize(s)| - 1] == []
  {
    InterleaveLast(Tokenize(s), SepRuns(s));
  }

  /** Trimming white space around a text that neither starts nor ends with
      white space gives that text back. */
  lemma TrimPadded(front: string, mid: string, back: string)
    requires Blank(front) && Blank(back)
    requires |mid| > 0 && !IsWhite(mid[0]) && !IsWhite(mid[|mid| - 1])
    ensures Trim(front + mid + back) == mid
  {
    var s := front + mid + back;
    assert s == front + (mid + back);
    LeadingWhiteOf(front, mid + back);
    assert s[|front|..] == mid + back;
    TrailingWhiteOf(mid, back);
  }

  /** The leading white space of a blank front followed by a non-white
      character is that front. */
  lemma {:induction false} LeadingWhiteOf(front: string, t: string)
    requires Blank(front) && |t| > 0 && !IsWhite(t[0])
    ensures LeadingWhite(front + t) == |front|
    decreases |front|
  {
    if front == [] {
      assert front + t == t;
    } else {
      assert (front + t)[0] == front[0];
      assert (front + t)[1..] == front[1..] + t;
      LeadingWhiteOf(front[1..], t);
    }
  }

  /** The trailing white space of a non-white character followed by a blank
      back is that back. */
  lemma {:induction false} TrailingWhiteOf(u: string, back: string)
    requires Blank(back) && |u| > 0 && !IsWhite(u[|u| - 1])
    ensures TrailingWhite(u + back) == |back|
    decreases |back|
  {
    var s := u + back;
    if back == [] {
      assert s == u;
    } else {
      assert s[|s| - 1] == back[|back| - 1];
      assert s[..|s| - 1] == u + back[..|back| - 1];
      TrailingWhiteOf(u, back[..|back| - 1]);
    }
  }
}

=== FILE: mock_fetch.dfy ===
/** `useMockFetch`: each run of the effect sets loading on, clears the error
    and calls the API; success stores the result, failure sets a fixed
    message, and either way loading goes off. There is no cancellation, so
    every call that settles applies its outcome. `Run` is a run of the
    effect; `Resolve`/`Reject` settle the oldest call still pending. */
module MockFetch {
  import opened Common

  datatype Event<T> = Run | Resolve(result: T) | Reject

  /** `data`, `isLoading`, `error`, and the number of calls not yet settled. */
  datatype Fetch<T> = Fetch(data: Option<T>, isLoading: bool, error: Option<string>, pending: nat)

  const FailureMessage := "Failed to fetch data."

  /** Before the effect has run: no data, loading, no error. */
  function Initial<T>(): (s: Fetch<T>)
    ensures s.data.None? && s.isLoading && s.error.None? && s.pending == 0
  {
    Fetch(None, true, None, 0)
  }

  /** One event. A run turns loading on and clears the error before the
      call, keeping the old data; a success stores the result as the data; a
      failure sets the fixed message and keeps the previous data; loading is
      off after either outcome. */
  function Step<T>(s: Fetch<T>, e: Event<T>): (t: Fetch<T>)
    ensures e.Run? ==> t == Fetch(s.data, true, None, s.pending + 1)
    ensures e.Resolve? && s.pending > 0 ==>
      t.data == Some(e.result) && !t.isLoading && t.error == s.error && t.pending == s.pending - 1
    ensures e.Reject? && s.pending > 0 ==>
      t.data == s.data && !t.isLoading && t.error == Some(FailureMessage) && t.pending == s.pending - 1
    ensures !e.Run? && s.pending == 0 ==> t == s
  {
    match e
    case Run => s.(isLoading := true, error := None, pending := s.pending + 1)
    case Resolve(r) =>
      if s.pending == 0 then s else s.(data := Some(r), isLoading := false, pending := s.pending - 1)
    case Reject =>
      if s.pending == 0 then s else s.(error := Some(FailureMessage), isLoading := false, pending := s.pending - 1)
  }

  function RunAll<T>(s: Fetch<T>, events: seq<Event<T>>): Fetch<T>
    decreases |events|
  {
    if events == [] then s else RunAll(Step(s, events[0]), events[1..])
  }

  /** The only error the hook ever shows is the fixed failure message. */
  predicate ErrorIsFixed<T>(s: Fetch<T>) {
    s.error.None? || s.error.value == FailureMessage
  }

  /** Whatever happens, the error is absent or the fixed message, and data,
      once present, never goes away. */
  lemma {:induction false} RunKeepsShape<T>(s: Fetch<T>, events: seq<Event<T>>)
    requires ErrorIsFixed(s)
    ensures ErrorIsFixed(RunAll(s, events))
    ensures s.data.Some? ==> RunAll(s, events).data.Some?
    decreases |events|
  {
    if events != [] {
      RunKeepsShape(Step(s, events[0]), events[1..]);
    }
  }

  /** The last outcome decides: after a run whose call succeeds, the data is
      the result and there is no error; after one whose call fails, the error
      is set and the old data stays. Loading is off in both cases. */
  lemma RunThenSettle<T>(s: Fetch<T>, r: T)
    requires s.pending == 0
    ensures RunAll(s, [Run, Resolve(r)]) == Fetch(Some(r), false, None, 0)
    ensures RunAll(s, [Run, Reject]) == Fetch(s.data, false, Some(FailureMessage), 0)
  {
    var t := Step(s, Run);
    assert RunAll(s, [Run, Resolve(r)]) == RunAll(t, [Resolve(r)]);
    assert RunAll(t, [Resolve(r)]) == Step(t, Resolve(r));
    assert RunAll(s, [Run, Reject]) == RunAll(t, [Reject]);
    assert RunAll(t, [Reject]) == Step(t, Reject);
  }

  /** Loading is on exactly while some call is pending. */
  predicate Settled<T>(s: Fetch<T>) {
    s.isLoading <==> s.pending > 0
  }

  /** With calls settling one at a time, loading is on exactly while a
      call is pending. */
  lemma {:induction false} OneAtATime<T>(s: Fetch<T>, events: seq<Event<T>>)
    requires Settled(s) && s.pending <= 1
    requires forall i :: 0 <= i < |events| - 1 ==> events[i].Run? ==> !events[i + 1].Run?
    requires |events| > 0 && events[0].Run? ==> s.pending == 0
    ensures Settled(RunAll(s, events)) && RunAll(s, events).pending <= 1
    decreases |events|
  {
    if events != [] {
      var t := Step(s, events[0]);
      assert |events[1..]| > 0 && events[1..][0].Run? ==> t.pending == 0 by {
        if |events[1..]| > 0 && events[1..][0].Run? {
          assert events[1].Run?;
        }
      }
      OneAtATime(t, events[1..]);
    }
  }
}

=== FILE: monthly_task.dfy ===
/** `calculate_monthly_co2_task`: for every device of a client and every day
    number 1..31 of a month, the energy the device drew that day is
    integrated from its readings and turned into daily emissions. Each
    device-day carries a unique id; a device-day whose id is already logged is
    skipped, and every id produced is logged afterwards, so running the task
    again computes nothing new.

    The databases are inputs: `devices` is the client's device query,
    `name` the owner query (None when there is no such user), `logged` the ids
    in the logged bank and `stamps(serial, day)` the readings of that device
    on that day, in ascending time order. */
module MonthlyTask {
  import opened Common
  import opened PyText
  import Emissions

  datatype Device = Device(serial: string, alias: Option<string>)

  /** One reading: time in seconds, supply voltage and panel current. */
  datatype Reading = Reading(time: int, voltage: Option<real>, current: Option<real>)

  datatype ClientName = ClientName(first: string, last: string)

  /** The task's arguments. */
  datatype Job = Job(clientId: int, year: int, month: int)

  /** One computed device-day, as inserted into the CO2 collection. */
  datatype DayRecord = DayRecord(
    uniqueId: string,
    clientId: int,
    clientName: string,
    serial: string,
    siteName: Option<string>,
    year: int,
    month: int,
    day: int,
    energyKwh: real,
    co2: real)

  // ---------------------------------------------------------------------
  // The unique id of a device-day.

  /** `f"CCO2A{client_id}A{serial}A{year}A{month}A{day_number}"`. */
  function UniqueId(clientId: int, serial: string, year: int, month: int, day: int): string {
    "CCO2A" + DecimalString(clientId) + "A" + serial + "A" + DecimalString(year)
      + "A" + DecimalString(month) + "A" + DecimalString(day)
  }

  datatype IdParts = IdParts(clientId: int, serial: string, year: int, month: int, day: int)

  /** Reads an id back: the fields between the letters `A`; the client comes
      second, the date is the last three fields, and the serial is whatever
      lies between (it may itself contain `A`). */
  function ParseUniqueId(id: string): Option<IdParts> {
    ReadIdFields(Split(id, 'A'))
  }

  function ReadIdFields(f: seq<string>): Option<IdParts> {
    if |f| >= 6 && f[0] == "CCO2" then
      var c := ParseDecimal(f[1]);
      var y := ParseDecimal(f[|f| - 3]);
      var m := ParseDecimal(f[|f| - 2]);
      var d := ParseDecimal(f[|f| - 1]);
      if c.Some? && y.Some? && m.Some? && d.Some? then
        Some(IdParts(c.value, Join(f[2..|f| - 3], 'A'), y.value, m.value, d.value))
      else None
    else None
  }

  /** The fields of an id between its letters `A`: the prefix, the client,
      the pieces of the serial, then year, month and day. */
  function IdFields(clientId: int, serial: string, year: int, month: int, day: int): seq<string> {
    ["CCO2", DecimalString(clientId)] + Split(serial, 'A')
      + [DecimalString(year), DecimalString(month), DecimalString(day)]
  }

  lemma IdIsJoinOfFields(clientId: int, serial: string, year: int, month: int, day: int)
    ensures Join(IdFields(clientId, serial, year, month, day), 'A') == UniqueId(clientId, serial, year, month, day)
  {
    var dc, dy, dm, dd := DecimalString(clientId), DecimalString(year), DecimalString(month), DecimalString(day);
    var p := Split(serial, 'A');
    var head := ["CCO2", dc];
    var tail := [dy, dm, dd];
    var rest := Join(p + tail, 'A');
    JoinTwo("CCO2", dc);
    JoinThree(dy, dm, dd);
    JoinAppend(p, tail, 'A');
    assert rest == serial + "A" + (dy + "A" + dm + "A" + dd);
    JoinAppend(head, p + tail, 'A');
    assert head + (p + tail) == IdFields(clientId, serial, year, month, day);
    IdShape(dc, serial, dy, dm, dd);
  }

  lemma JoinTwo(a: string, b: string)
    ensures Join([a, b], 'A') == a + "A" + b
  {
    assert [a, b][1..] == [b];
  }

  lemma JoinThree(a: string, b: string, c: string)
    ensures Join([a, b, c], 'A') == a + "A" + b + "A" + c
  {
    assert [a, b, c][1..] == [b, c];
    JoinTwo(b, c);
  }

  /** Regrouping the concatenation of an id. */
  lemma IdShape(dc: string, serial: string, dy: string, dm: string, dd: string)
    ensures ("CCO2" + "A" + dc) + "A" + (serial + "A" + (dy + "A" + dm + "A" + dd))
      == "CCO2A" + dc + "A" + serial + "A" + dy + "A" + dm + "A" + dd
  {
  }

  lemma IdFieldsAvoidA(clientId: int, serial: string, year: int, month: int, day: int)
    ensures forall i :: 0 <= i < |IdFields(clientId, serial, year, month, day)| ==>
      'A' !in IdFields(clientId, serial, year, month, day)[i]
  {
    var fields := IdFields(clientId, serial, year, month, day);
    var p := Split(serial, 'A');
    DecimalStringAvoids(clientId, 'A');
    DecimalStringAvoids(year, 'A');
    DecimalStringAvoids(month, 'A');
    DecimalStringAvoids(day, 'A');
    assert forall i :: 2 <= i < |fields| - 3 ==> fields[i] == p[i - 2];
  }

  lemma SplitUniqueId(clientId: int, serial: string, year: int, month: int, day: int)
    ensures Split(UniqueId(clientId, serial, year, month, day), 'A') == IdFields(clientId, serial, year, month, day)
  {
    var fields := IdFields(clientId, serial, year, month, day);
    IdIsJoinOfFields(clientId, serial, year, month, day);
    IdFieldsAvoidA(clientId, serial, year, month, day);
    SplitJoin(fields, 'A');
  }

  /** Every id reads back as the device-day it was built from, whatever the
      serial contains, so distinct device-days never share an id. */
  lemma UniqueIdRoundTrip(clientId: int, serial: string, year: int, month: int, day: int)
    ensures ParseUniqueId(UniqueId(clientId, serial, year, month, day))
            == Some(IdParts(clientId, serial, year, month, day))
  {
    var fields := IdFields(clientId, serial, year, month, day);
    SplitUniqueId(clientId, serial, year, month, day);
    var n := |fields|;
    assert fields[0] == "CCO2" && fields[1] == DecimalString(clientId);
    assert fields[n - 3] == DecimalString(year) && fields[n - 2] == DecimalString(month) && fields[n - 1] == DecimalString(day);
    assert fields[2..n - 3] == Split(serial, 'A');
    DecimalRoundTrip(clientId);
    DecimalRoundTrip(year);
    DecimalRoundTrip(month);
    DecimalRoundTrip(day);
    ParseFields(fields, clientId, year, month, day);
  }

  /** Reading the fields of an id that have the right shape. */
  lemma ParseFields(fields: seq<string>, c: int, y: int, m: int, d: int)
    requires |fields| >= 6 && fields[0] == "CCO2"
    requires ParseDecimal(fields[1]) == Some(c)
    requires ParseDecimal(fields[|fields| - 3]) == Some(y)
    requires ParseDecimal(fields[|fields| - 2]) == Some(m)
    requires ParseDecimal(fields[|fields| - 1]) == Some(d)
    ensures ReadIdFields(fields) == Some(IdParts(c, Join(fields[2..|fields| - 3], 'A'), y, m, d))
  {
  }

  /** Two device-days have the same id only when they are the same. */
  lemma UniqueIdInjective(c: int, s: string, y: int, m: int, d: int, c': int, s': string, y': int, m': int, d': int)
    requires UniqueId(c, s, y, m, d) == UniqueId(c', s', y', m', d')
    ensures c == c' && s == s' && y == y' && m == m' && d == d'
  {
    UniqueIdRoundTrip(c, s, y, m, d);
    UniqueIdRoundTrip(c', s', y', m', d');
  }

  // ---------------------------------------------------------------------
  // Energy of one device-day.

  /** What a reading adds, given the time of the reading before it: voltage
      times current times the gap in hours when the gap is at most half an
      hour, nothing otherwise; a missing voltage or current counts as 0. */
  function Gain(previousTime: int, r: Reading): (e: real)
    ensures r.time - previousTime > 1800 ==> e == 0.0
    ensures r.voltage.None? || r.current.None? ==> e == 0.0
    ensures r.time - previousTime <= 1800 ==>
      e == r.voltage.GetOr(0.0) * r.current.GetOr(0.0) * ((r.time - previousTime) as real / 3600.0)
    ensures r.time - previousTime < 0 && r.voltage.GetOr(0.0) * r.current.GetOr(0.0) > 0.0 ==> e < 0.0
    ensures 0 <= r.time - previousTime <= 1800 && r.voltage.GetOr(0.0) * r.current.GetOr(0.0) >= 0.0 ==> e >= 0.0
  {
    var hours := (r.time - previousTime) as real / 3600.0;
    var v := r.voltage.GetOr(0.0);
    var c := r.current.GetOr(0.0);
    if hours <= 0.5 then
      assert hours >= 0.0 && v * c >= 0.0 ==> v * c * hours >= 0.0 by {
        if hours >= 0.0 && v * c >= 0.0 { NonNegativeProduct(v * c, hours); }
      }
      assert hours < 0.0 && v * c > 0.0 ==> v * c * hours < 0.0 by {
        if hours < 0.0 && v * c > 0.0 { NegativeProduct(v * c, hours); }
      }
      v * c * hours
    else 0.0
  }

  lemma NegativeProduct(a: real, b: real)
    requires a > 0.0 && b < 0.0
    ensures a * b < 0.0
  {
  }

  lemma NonNegativeProduct(a: real, b: real)
    requires a >= 0.0 && b >= 0.0
    ensures a * b >= 0.0
  {
  }

  /** The source's loop over the readings, carrying the previous time and the
      running energy. */
  function Accumulate(readings: seq<Reading>, previousTime: Option<int>, energy: real): real
    decreases |readings|
  {
    if readings == [] then energy
    else
      var r := readings[0];
      var e := match previousTime case None => energy case Some(t) => energy + Gain(t, r);
      Accumulate(readings[1..], Some(r.time), e)
  }

  /** The energy in Wh of a day's readings. */
  function Energy(readings: seq<Reading>): real {
    Accumulate(readings, None, 0.0)
  }

  /** The gains of consecutive pairs of readings. */
  function PairGains(readings: seq<Reading>): (g: seq<real>)
    ensures |readings| >= 1 ==> |g| == |readings| - 1
  {
    if |readings| <= 1 then []
    else seq(|readings| - 1, i requires 0 <= i < |readings| - 1 => Gain(readings[i].time, readings[i + 1]))
  }

  /** The loop computes the sum over consecutive pairs of readings: the
      first reading contributes nothing on its own. */
  lemma EnergyIsPairSum(readings: seq<Reading>)
    ensures Energy(readings) == Sum(PairGains(readings))
  {
    if readings != [] {
      var g := PairGains(readings);
      assert g[..0] == [];
      AccumulateSuffix(readings, 1);
      assert g[..|readings| - 1] == g;
    }
  }

  /** After `k` readings the loop holds the gains of the first `k - 1` pairs. */
  lemma {:induction false} AccumulateSuffix(readings: seq<Reading>, k: nat)
    requires 1 <= k <= |readings|
    ensures Accumulate(readings[k..], Some(readings[k - 1].time), Sum(PairGains(readings)[..k - 1]))
            == Sum(PairGains(readings))
    decreases |readings| - k
  {
    var g := PairGains(readings);
    if k == |readings| {
      assert readings[k..] == [];
      assert g[..k - 1] == g;
    } else {
      var rest := readings[k..];
      assert rest[0] == readings[k];
      assert rest[1..] == readings[k + 1..];
      assert g[..k][..k - 1] == g[..k - 1];
      assert Sum(g[..k]) == Sum(g[..k - 1]) + g[k - 1];
      AccumulateSuffix(readings, k + 1);
    }
  }

  /** With readings in ascending time order and non-negative power, the
      energy is non-negative. */
  lemma EnergyNonNegative(readings: seq<Reading>)
    requires forall i :: 0 <= i < |readings| - 1 ==> readings[i].time <= readings[i + 1].time
    requires forall i :: 0 <= i < |readings| ==> readings[i].voltage.GetOr(0.0) * readings[i].current.GetOr(0.0) >= 0.0
    ensures Energy(readings) >= 0.0
  {
    EnergyIsPairSum(readings);
    var g := PairGains(readings);
    forall i | 0 <= i < |g| ensures g[i] >= 0.0 {
      assert g[i] == Gain(readings[i].time, readings[i + 1]);
    }
    SumNonNegative(g);
  }

  // ---------------------------------------------------------------------
  // The loop over devices and days.

  /** The record of one device-day: none when its id is logged or it has no
      readings; otherwise the day's energy in kWh and its daily emissions. */
  function DayRecordFor(
    job: Job, name: string, device: Device, logged: set<string>,
    stamps: (string, int) -> seq<Reading>, day: int): (r: Option<DayRecord>)
    ensures r.Some? <==>
      UniqueId(job.clientId, device.serial, job.year, job.month, day) !in logged && stamps(device.serial, day) != []
    ensures r.Some? ==>
      && r.value.uniqueId == UniqueId(job.clientId, device.serial, job.year, job.month, day)
      && r.value.serial == device.serial && r.value.siteName == device.alias && r.value.day == day
      && r.value.clientId == job.clientId && r.value.year == job.year && r.value.month == job.month
      && r.value.clientName == name
      && r.value.energyKwh == Energy(stamps(device.serial, day)) / 1000.0
      && r.value.co2 == Emissions.DailyCO2(r.value.energyKwh)
  {
    var id := UniqueId(job.clientId, device.serial, job.year, job.month, day);
    if id in logged then None
    else
      var readings := stamps(device.serial, day);
      if readings == [] then None
      else
        var kwh := Energy(readings) / 1000.0;
        Some(DayRecord(id, job.clientId, name, device.serial, device.alias, job.year, job.month, day,
                       kwh, Emissions.DailyCO2(kwh)))
  }

  /** The records of one device for the days `day..31`, in day order. */
  function DeviceRecords(
    job: Job, name: string, device: Device, logged: set<string>,
    stamps: (string, int) -> seq<Reading>, day: int): (rs: seq<DayRecord>)
    requires 1 <= day <= 32
    ensures forall i :: 0 <= i < |rs| ==> day <= rs[i].day <= 31
    ensures forall i, j :: 0 <= i < j < |rs| ==> rs[i].day < rs[j].day
    decreases 32 - day
  {
    if day == 32 then []
    else
      var rest := DeviceRecords(job, name, device, logged, stamps, day + 1);
      match DayRecordFor(job, name, device, logged, stamps, day)
      case None => rest
      case Some(r) => [r] + rest
  }

  /** The records of all devices, device by device. */
  function Records(
    job: Job, name: string, devices: seq<Device>, logged: set<string>,
    stamps: (string, int) -> seq<Reading>): seq<DayRecord>
    decreases |devices|
  {
    if devices == [] then []
    else DeviceRecords(job, name, devices[0], logged, stamps, 1) + Records(job, name, devices[1..], logged, stamps)
  }

  /** A record belongs to a device's list exactly when it is that device's
      record for its own day. */
  lemma {:induction false} DeviceRecordsMembership(
    job: Job, name: string, device: Device, logged: set<string>,
    stamps: (string, int) -> seq<Reading>, day: int, rec: DayRecord)
    requires 1 <= day <= 32
    ensures rec in DeviceRecords(job, name, device, logged, stamps, day)
            <==> day <= rec.day <= 31 && DayRecordFor(job, name, device, logged, stamps, rec.day) == Some(rec)
    decreases 32 - day
  {
    if day < 32 {
      var rest := DeviceRecords(job, name, device, logged, stamps, day + 1);
      DeviceRecordsMembership(job, name, device, logged, stamps, day + 1, rec);
      var here := DayRecordFor(job, name, device, logged, stamps, day);
      var mine := DayRecordFor(job, name, device, logged, stamps, rec.day);
      assert here.Some? ==> here.value.day == day;
      assert rec.day == day ==> mine == here;
      if here.None? {
        assert DeviceRecords(job, name, device, logged, stamps, day) == rest;
      } else {
        assert DeviceRecords(job, name, device, logged, stamps, day) == [here.value] + rest;
      }
    }
  }

  /** A record is produced exactly when it is the record of one of the
      client's devices on a day 1..31: every unlogged device-day with
      readings yields a record, and nothing else does. */
  lemma {:induction false} RecordsMembership(
    job: Job, name: string, devices: seq<Device>, logged: set<string>,
    stamps: (string, int) -> seq<Reading>, rec: DayRecord)
    ensures rec in Records(job, name, devices, logged, stamps)
            <==> && Device(rec.serial, rec.siteName) in devices && 1 <= rec.day <= 31
                 && DayRecordFor(job, name, Device(rec.serial, rec.siteName), logged, stamps, rec.day) == Some(rec)
    decreases |devices|
  {
    if devices != [] {
      var d := devices[0];
      DeviceRecordsMembership(job, name, d, logged, stamps, 1, rec);
      RecordsMembership(job, name, devices[1..], logged, stamps, rec);
      assert devices == [d] + devices[1..];
    }
  }

  /** Every unlogged device-day with readings yields its record. */
  lemma RecordsComplete(
    job: Job, name: string, devices: seq<Device>, logged: set<string>,
    stamps: (string, int) -> seq<Reading>, device: Device, day: int)
    requires device in devices && 1 <= day <= 31
    requires UniqueId(job.clientId, device.serial, job.year, job.month, day) !in logged
    requires stamps(device.serial, day) != []
    ensures DayRecordFor(job, name, device, logged, stamps, day).Some?
    ensures DayRecordFor(job, name, device, logged, stamps, day).value in Records(job, name, devices, logged, stamps)
  {
    var rec := DayRecordFor(job, name, device, logged, stamps, day).value;
    assert Device(rec.serial, rec.siteName) == device;
    RecordsMembership(job, name, devices, logged, stamps, rec);
  }

  /** When no device-day yields a record, nothing is produced. */
  lemma {:induction false} DeviceRecordsEmpty(
    job: Job, name: string, device: Device, logged: set<string>,
    stamps: (string, int) -> seq<Reading>, day: int)
    requires 1 <= day <= 32
    requires forall d :: day <= d <= 31 ==> DayRecordFor(job, name, device, logged, stamps, d).None?
    ensures DeviceRecords(job, name, device, logged, stamps, day) == []
    decreases 32 - day
  {
    if day < 32 {
      DeviceRecordsEmpty(job, name, device, logged, stamps, day + 1);
    }
  }

  lemma {:induction false} RecordsEmpty(
    job: Job, name: string, devices: seq<Device>, logged: set<string>,
    stamps: (string, int) -> seq<Reading>)
    requires forall k, d :: 0 <= k < |devices| && 1 <= d <= 31 ==>
      DayRecordFor(job, name, devices[k], logged, stamps, d).None?
    ensures Records(job, name, devices, logged, stamps) == []
    decreases |devices|
  {
    if devices != [] {
      DeviceRecordsEmpty(job, name, devices[0], logged, stamps, 1);
      assert forall k, d :: 0 <= k < |devices[1..]| && 1 <= d <= 31 ==>
        DayRecordFor(job, name, devices[1..][k], logged, stamps, d) == DayRecordFor(job, name, devices[k + 1], logged, stamps, d);
      RecordsEmpty(job, name, devices[1..], logged, stamps);
    }
  }

  /** Records of different device-days have different ids. When the
      client's serials are distinct, so are all the ids produced in one run. */
  lemma {:induction false} RecordIdsDistinct(
    job: Job, name: string, devices: seq<Device>, logged: set<string>,
    stamps: (string, int) -> seq<Reading>)
    requires forall i, j :: 0 <= i < j < |devices| ==> devices[i].serial != devices[j].serial
    ensures forall i, j :: 0 <= i < j < |Records(job, name, devices, logged, stamps)| ==>
      Records(job, name, devices, logged, stamps)[i].uniqueId != Records(job, name, devices, logged, stamps)[j].uniqueId
    decreases |devices|
  {
    var rs := Records(job, name, devices, logged, stamps);
    if devices != [] {
      var d := devices[0];
      var a := DeviceRecords(job, name, d, logged, stamps, 1);
      var b := Records(job, name, devices[1..], logged, stamps);
      RecordIdsDistinct(job, name, devices[1..], logged, stamps);
      assert rs == a + b;
      forall i, j | 0 <= i < j < |rs| ensures rs[i].uniqueId != rs[j].uniqueId {
        RecordFields(job, name, devices, logged, stamps, rs[i]);
        RecordFields(job, name, devices, logged, stamps, rs[j]);
        if j < |a| {
          assert rs[i] == a[i] && rs[j] == a[j];
          UniqueIdSeparates(job.clientId, rs[i].serial, job.year, job.month, rs[i].day, rs[j].serial, rs[j].day);
        } else if i < |a| {
          assert rs[i] == a[i];
          DeviceRecordsMembership(job, name, d, logged, stamps, 1, rs[i]);
          assert rs[j] == b[j - |a|];
          RecordsMembership(job, name, devices[1..], logged, stamps, rs[j]);
          SerialNotInRest(devices, Device(rs[j].serial, rs[j].siteName));
          UniqueIdSeparates(job.clientId, rs[i].serial, job.year, job.month, rs[i].day, rs[j].serial, rs[j].day);
        } else {
          assert rs[i] == b[i - |a|] && rs[j] == b[j - |a|];
        }
      }
    }
  }

  /** Device-days that differ in serial or day have different ids. */
  lemma UniqueIdSeparates(c: int, s: string, y: int, m: int, d: int, s': string, d': int)
    requires s != s' || d != d'
    ensures UniqueId(c, s, y, m, d) != UniqueId(c, s', y, m, d')
  {
    UniqueIdRoundTrip(c, s, y, m, d);
    UniqueIdRoundTrip(c, s', y, m, d');
  }

  lemma SerialNotInRest(devices: seq<Device>, other: Device)
    requires |devices| >= 1
    requires forall i, j :: 0 <= i < j < |devices| ==> devices[i].serial != devices[j].serial
    requires other in devices[1..]
    ensures other.serial != devices[0].serial
  {
    var k :| 0 <= k < |devices[1..]| && devices[1..][k] == other;
    assert devices[k + 1] == other;
  }

  /** The fields every produced record carries. */
  lemma RecordFields(
    job: Job, name: string, devices: seq<Device>, logged: set<string>,
    stamps: (string, int) -> seq<Reading>, rec: DayRecord)
    requires rec in Records(job, name, devices, logged, stamps)
    ensures rec.uniqueId == UniqueId(job.clientId, rec.serial, job.year, job.month, rec.day)
    ensures rec.uniqueId !in logged && 1 <= rec.day <= 31
    ensures stamps(rec.serial, rec.day) != []
  {
    RecordsMembership(job, name, devices, logged, stamps, rec);
  }

  // ---------------------------------------------------------------------
  // The task.

  datatype Status =
    | Failed(message: string)
    | Complete(clientId: int, year: int, month: int, daysProcessed: nat)

  /** What one run returns and leaves behind: its status, the records it
      inserted and the logged ids afterwards. */
  datatype TaskRun = TaskRun(status: Status, inserted: seq<DayRecord>, loggedAfter: set<string>)

  /** The only way the task raises: the client has devices but no user row
      (`client_name_query.first_name` on None). */
  datatype TaskError = ClientMissing

  const NoDevicesMessage := "Client or devices not found."

  function IdsOf(rs: seq<DayRecord>): set<string> {
    set i | 0 <= i < |rs| :: rs[i].uniqueId
  }

  /** The client name the records carry: first and last name with a space. */
  function FullName(n: ClientName): string {
    n.first + " " + n.last
  }

  /** `calculate_monthly_co2_task`: no devices is a failure status; devices
      without a user row raise; otherwise the run completes, inserting the
      records of every device-day not yet logged and logging their ids. */
  function MonthlyCO2Task(
    job: Job, devices: seq<Device>, name: Option<ClientName>, logged: set<string>,
    stamps: (string, int) -> seq<Reading>): (r: Result<TaskRun, TaskError>)
    ensures devices == [] ==> r == Ok(TaskRun(Failed(NoDevicesMessage), [], logged))
    ensures devices != [] ==> (r.Err? <==> name.None?)
    ensures devices != [] && name.Some? ==>
      var rs := Records(job, FullName(name.value), devices, logged, stamps);
      r == Ok(TaskRun(Complete(job.clientId, job.year, job.month, |rs|), rs, logged + IdsOf(rs)))
    ensures r.Ok? && r.value.status.Complete? ==>
      && r.value.status == Complete(job.clientId, job.year, job.month, |r.value.inserted|)
      && r.value.loggedAfter == logged + IdsOf(r.value.inserted)
      && forall i :: 0 <= i < |r.value.inserted| ==> r.value.inserted[i].uniqueId !in logged
  {
    if devices == [] then Ok(TaskRun(Failed(NoDevicesMessage), [], logged))
    else if name.None? then Err(ClientMissing)
    else
      var clientName := FullName(name.value);
      var rs := Records(job, clientName, devices, logged, stamps);
      assert forall i :: 0 <= i < |rs| ==> rs[i].uniqueId !in logged by {
        forall i | 0 <= i < |rs| ensures rs[i].uniqueId !in logged {
          RecordFields(job, clientName, devices, logged, stamps, rs[i]);
        }
      }
      Ok(TaskRun(Complete(job.clientId, job.year, job.month, |rs|), rs, logged + IdsOf(rs)))
  }

  /** Running the task again on the same readings with the updated logged
      ids computes and inserts nothing, and logs nothing new. */
  lemma TaskIdempotent(
    job: Job, devices: seq<Device>, name: Option<ClientName>, logged: set<string>,
    stamps: (string, int) -> seq<Reading>)
    requires MonthlyCO2Task(job, devices, name, logged, stamps).Ok?
    ensures var again := MonthlyCO2Task(job, devices, name, MonthlyCO2Task(job, devices, name, logged, stamps).value.loggedAfter, stamps);
      && again.Ok?
      && again.value.inserted == []
      && again.value.loggedAfter == MonthlyCO2Task(job, devices, name, logged, stamps).value.loggedAfter
  {
    if devices != [] {
      var clientName := FullName(name.value);
      var first := Records(job, clientName, devices, logged, stamps);
      var after := logged + IdsOf(first);
      forall k, d | 0 <= k < |devices| && 1 <= d <= 31
        ensures DayRecordFor(job, clientName, devices[k], after, stamps, d).None?
      {
        var dev := devices[k];
        var id := UniqueId(job.clientId, dev.serial, job.year, job.month, d);
        var before := DayRecordFor(job, clientName, dev, logged, stamps, d);
        if before.Some? {
          RecordsMembership(job, clientName, devices, logged, stamps, before.value);
          assert Device(before.value.serial, before.value.siteName) == dev;
          var i :| 0 <= i < |first| && first[i] == before.value;
          assert id in IdsOf(first);
        }
      }
      RecordsEmpty(job, clientName, devices, after, stamps);
      assert IdsOf([]) == {};
    }
  }
}

=== FILE: py_text.dfy ===
/** The two pieces of Python string handling the backend relies on:
    `str.split(sep)` with a one-character separator (and its inverse,
    `sep.join`), and the decimal rendering of an `int` inside an f-string. */
module PyText {
  import opened Common

  /** Index of the first occurrence of `c` in `s`, or `|s|` when absent. */
  function IndexOf(s: string, c: char): (k: nat)
    ensures k <= |s|
    ensures forall j :: 0 <= j < k ==> s[j] != c
    ensures k < |s| ==> s[k] == c
    decreases |s|
  {
    if s == [] then 0
    else if s[0] == c then 0
    else 1 + IndexOf(s[1..], c)
  }

  /** `sep.join(fields)`. */
  function Join(fields: seq<string>, sep: char): string
    decreases |fields|
  {
    if fields == [] then ""
    else if |fields| == 1 then fields[0]
    else fields[0] + [sep] + Join(fields[1..], sep)
  }

  /** `s.split(sep)`: the text between consecutive occurrences of `sep`. There
      is always at least one field; no field contains the separator; joining
      the fields back with the separator gives the input. */
  function Split(s: string, sep: char): (fields: seq<string>)
    ensures |fields| >= 1
    ensures |fields| == 1 <==> sep !in s
    ensures forall i :: 0 <= i < |fields| ==> sep !in fields[i]
    ensures Join(fields, sep) == s
    decreases |s|
  {
    var k := IndexOf(s, sep);
    if k == |s| then
      assert forall j :: 0 <= j < |s| ==> s[j] != sep;
      [s]
    else
      var rest := Split(s[k + 1..], sep);
      var fields := [s[..k]] + rest;
      assert s == s[..k] + [sep] + s[k + 1..];
      assert fields[1..] == rest;
      assert sep in s by {
        assert s[k] == sep;
      }
      assert forall j :: 0 <= j < k ==> s[..k][j] == s[j];
      fields
  }

  /** Splitting a joined list of separator-free fields gives the fields back:
      together with `Split`'s own contract, `Split` and `Join` are inverse. */
  lemma {:induction false} SplitJoin(fields: seq<string>, sep: char)
    requires |fields| >= 1
    requires forall i :: 0 <= i < |fields| ==> sep !in fields[i]
    ensures Split(Join(fields, sep), sep) == fields
    decreases |fields|
  {
    if |fields| == 1 {
      assert IndexOf(fields[0], sep) == |fields[0]|;
    } else {
      var s := Join(fields, sep);
      var f := fields[0];
      assert s == f + [sep] + Join(fields[1..], sep);
      IndexOfPrefix(f, sep, Join(fields[1..], sep));
      assert s[|f| + 1..] == Join(fields[1..], sep);
      assert s[..|f|] == f;
      SplitJoin(fields[1..], sep);
    }
  }

  /** The separator placed right after a separator-free prefix is the first one. */
  lemma IndexOfPrefix(f: string, sep: char, rest: string)
    requires sep !in f
    ensures IndexOf(f + [sep] + rest, sep) == |f|
  {
    var s := f + [sep] + rest;
    assert s[|f|] == sep;
    assert forall j :: 0 <= j < |f| ==> s[j] == f[j];
  }

  /** Joining two non-empty field lists puts one separator between them. */
  lemma {:induction false} JoinAppend(a: seq<string>, b: seq<string>, sep: char)
    requires |a| >= 1 && |b| >= 1
    ensures Join(a + b, sep) == Join(a, sep) + [sep] + Join(b, sep)
    decreases |a|
  {
    if |a| == 1 {
      assert (a + b)[1..] == b;
    } else {
      assert (a + b)[1..] == a[1..] + b;
      JoinAppend(a[1..], b, sep);
    }
  }

  /** A join avoids a character exactly when all its pieces do (for a
      character other than the separator). */
  lemma {:induction false} JoinAvoids(pieces: seq<string>, sep: char, c: char)
    requires c != sep
    requires forall i :: 0 <= i < |pieces| ==> c !in pieces[i]
    ensures c !in Join(pieces, sep)
    decreases |pieces|
  {
    if |pieces| > 1 {
      JoinAvoids(pieces[1..], sep, c);
    }
  }

  lemma {:induction false} PiecesAvoid(pieces: seq<string>, sep: char, c: char)
    requires c !in Join(pieces, sep)
    ensures forall i :: 0 <= i < |pieces| ==> c !in pieces[i]
    decreases |pieces|
  {
    if |pieces| > 1 {
      var j := Join(pieces[1..], sep);
      assert Join(pieces, sep) == pieces[0] + [sep] + j;
      assert forall k :: 0 <= k < |j| ==> j[k] == Join(pieces, sep)[|pieces[0]| + 1 + k];
      assert forall k :: 0 <= k < |pieces[0]| ==> pieces[0][k] == Join(pieces, sep)[k];
      PiecesAvoid(pieces[1..], sep, c);
      assert forall i :: 1 <= i < |pieces| ==> pieces[i] == pieces[1..][i - 1];
    }
  }

  // ---------------------------------------------------------------------
  // Decimal rendering of integers (`f"{n}"` for a Python `int`).

  function DigitChar(d: nat): char
    requires d < 10
  {
    "0123456789"[d]
  }

  predicate IsDigit(c: char) {
    '0' <= c <= '9'
  }

  function DigitValue(c: char): nat
    requires IsDigit(c)
  {
    (c as int - '0' as int) as nat
  }

  /** The decimal digits of a natural number, most significant first, with no
      leading zeros. */
  function Digits(n: nat): (s: string)
    ensures |s| >= 1
    ensures forall i :: 0 <= i < |s| ==> IsDigit(s[i])
    decreases n
  {
    if n < 10 then [DigitChar(n)] else Digits(n / 10) + [DigitChar(n % 10)]
  }

  /** `str(n)`: an optional minus sign followed by the digits of `|n|`. */
  function DecimalString(n: int): string {
    if n < 0 then "-" + Digits(-n) else Digits(n)
  }

  /** Reads back a non-empty string of decimal digits. */
  function ParseDigits(s: string): nat
    requires |s| >= 1
    requires forall i :: 0 <= i < |s| ==> IsDigit(s[i])
    decreases |s|
  {
    if |s| == 1 then DigitValue(s[0])
    else 10 * ParseDigits(s[..|s| - 1]) + DigitValue(s[|s| - 1])
  }

  /** Reads back an optional minus sign followed by decimal digits; anything
      else is not a decimal integer. */
  function ParseDecimal(s: string): Option<int> {
    if |s| >= 1 && s[0] == '-' then
      var t := s[1..];
      if |t| >= 1 && forall i :: 0 <= i < |t| ==> IsDigit(t[i]) then Some(-(ParseDigits(t) as int)) else None
    else if |s| >= 1 && forall i :: 0 <= i < |s| ==> IsDigit(s[i]) then Some(ParseDigits(s))
    else None
  }

  lemma {:induction false} ParseDigitsOfDigits(n: nat)
    ensures ParseDigits(Digits(n)) == n
    decreases n
  {
    if n >= 10 {
      var s := Digits(n);
      assert s[..|s| - 1] == Digits(n / 10);
      ParseDigitsOfDigits(n / 10);
      assert DigitValue(DigitChar(n % 10)) == n % 10 by {
        var d := n % 10;
        assert d == 0 || d == 1 || d == 2 || d == 3 || d == 4 || d == 5 || d == 6 || d == 7 || d == 8 || d == 9;
      }
    } else {
      assert DigitValue(DigitChar(n)) == n by {
        assert n == 0 || n == 1 || n == 2 || n == 3 || n == 4 || n == 5 || n == 6 || n == 7 || n == 8 || n == 9;
      }
    }
  }

  /** Rendering an integer in decimal and reading it back gives the integer:
      the rendering is injective. */
  lemma DecimalRoundTrip(n: int)
    ensures ParseDecimal(DecimalString(n)) == Some(n)
  {
    var s := DecimalString(n);
    if n < 0 {
      var d := Digits(-n);
      ParseDigitsOfDigits(-n);
      assert s[0] == '-';
      assert s[1..] == d;
      assert forall i :: 0 <= i < |d| ==> IsDigit(d[i]);
    } else {
      var d := Digits(n);
      ParseDigitsOfDigits(n);
      assert IsDigit(s[0]);
      assert s[0] != '-';
    }
  }

  /** A decimal rendering contains only digits and possibly a leading minus,
      so in particular never the given letter-like separator. */
  lemma DecimalStringAvoids(n: int, c: char)
    requires c != '-' && !IsDigit(c)
    ensures c !in DecimalString(n)
  {
    var s := DecimalString(n);
    assert forall i :: 0 <= i < |s| ==> s[i] == '-' || IsDigit(s[i]) by {
      if n < 0 {
        assert forall i :: 1 <= i < |s| ==> s[i] == Digits(-n)[i - 1];
      }
    }
  }
}

=== FILE: results_polling.dfy ===
/** `useResultsPolling` as a state machine. While `isActive` holds, the
    effect fetches once immediately and then every 7 seconds; each result
    replaces `data`. Cleanup sets the session's `isCancelled` flag and clears
    its interval; a result arriving for a cancelled session is dropped, and a
    failed fetch is skipped without stopping the interval.

    `Mount(isActive)` is a run of the effect (after the previous cleanup),
    `Tick` the interval firing, `Response`/`Fail` the outcome of the oldest
    fetch still in flight. */
module ResultsPolling {
  import opened Common

  datatype Event<T> =
    | Mount(isActive: bool)
    | Tick
    | Response(result: T)
    | Fail
    | Cleanup

  /** `data`; the current session and whether it is still uncancelled
      (`!isCancelled`); whether its interval runs; the sessions of the fetches
      in flight, oldest first; and the number of fetches made. */
  datatype Poller<T> = Poller(
    data: Option<T>,
    session: nat,
    live: bool,
    intervalLive: bool,
    inFlight: seq<nat>,
    fetches: nat)

  /** Before the first effect: `useState<T | null>(null)`. */
  function Initial<T>(): Poller<T> {
    Poller(None, 0, false, false, [], 0)
  }

  /** `poll()`: returns at once for a cancelled session, otherwise starts a
      fetch. */
  function Poll<T>(s: Poller<T>): (t: Poller<T>)
    ensures s.live ==> t == s.(inFlight := s.inFlight + [s.session], fetches := s.fetches + 1)
    ensures !s.live ==> t == s
  {
    if !s.live then s else s.(inFlight := s.inFlight + [s.session], fetches := s.fetches + 1)
  }

  /** Cleanup of the current session: `isCancelled = true` and
      `clearInterval`. */
  function Cancel<T>(s: Poller<T>): Poller<T> {
    s.(live := false, intervalLive := false)
  }

  /** One event. An inactive run fetches nothing and keeps the last data; an
      active run starts a new session with one immediate fetch and a running
      interval. A tick of a running interval fetches once. A result for the
      current, uncancelled session replaces `data` wholesale; any other result
      and every failure leave `data` and the interval as they are. Cleanup
      cancels the session and stops its interval. */
  function Step<T>(s: Poller<T>, e: Event<T>): (t: Poller<T>)
    ensures e.Mount? && !e.isActive ==>
      t.data == s.data && t.fetches == s.fetches && !t.intervalLive && !t.live
    ensures e.Mount? && e.isActive ==>
      && t.data == s.data && t.live && t.intervalLive && t.session == s.session + 1
      && t.fetches == s.fetches + 1 && t.inFlight == s.inFlight + [t.session]
    ensures e.Tick? ==>
      && t.data == s.data && t.intervalLive == s.intervalLive && t.live == s.live
      && t.fetches == (if s.intervalLive && s.live then s.fetches + 1 else s.fetches)
    ensures e.Response? && s.inFlight != [] ==>
      && t.inFlight == s.inFlight[1..]
      && t.data == (if s.inFlight[0] == s.session && s.live then Some(e.result) else s.data)
      && t.intervalLive == s.intervalLive && t.fetches == s.fetches
    ensures e.Fail? ==>
      t.data == s.data && t.intervalLive == s.intervalLive && t.live == s.live && t.fetches == s.fetches
    ensures e.Cleanup? ==> !t.live && !t.intervalLive && t.data == s.data
  {
    match e
    case Mount(active) =>
      var t := Cancel(s);
      if !active then t
      else Poll(t.(session := s.session + 1, live := true, intervalLive := true))
    case Tick =>
      if s.intervalLive then Poll(s) else s
    case Response(r) =>
      if s.inFlight == [] then s
      else
        var t := s.(inFlight := s.inFlight[1..]);
        if s.inFlight[0] == s.session && s.live then t.(data := Some(r)) else t
    case Fail =>
      if s.inFlight == [] then s else s.(inFlight := s.inFlight[1..])
    case Cleanup =>
      Cancel(s)
  }

  function Run<T>(s: Poller<T>, events: seq<Event<T>>): Poller<T>
    decreases |events|
  {
    if events == [] then s else Run(Step(s, events[0]), events[1..])
  }

  /** Reachable states keep the interval and the session's flag together,
      and no fetch belongs to a session that has not started. */
  predicate Valid<T>(s: Poller<T>) {
    && s.intervalLive == s.live
    && forall i :: 0 <= i < |s.inFlight| ==> s.inFlight[i] <= s.session
  }

  /** Every event keeps the state valid; in particular the `isCancelled`
      check at the top of `poll` never fires for a tick, because a cancelled
      session's interval is already cleared. */
  lemma {:induction false} RunValid<T>(s: Poller<T>, events: seq<Event<T>>)
    requires Valid(s)
    ensures Valid(Run(s, events))
    decreases |events|
  {
    if events != [] {
      var t := Step(s, events[0]);
      assert Valid(t) by {
        assert forall i :: 0 <= i < |s.inFlight| ==> s.inFlight[i] <= t.session;
        if events[0].Response? || events[0].Fail? {
          if s.inFlight != [] {
            assert forall i :: 0 <= i < |t.inFlight| ==> t.inFlight[i] == s.inFlight[i + 1];
          }
        }
      }
      RunValid(t, events[1..]);
    }
  }

  predicate NoMount<T>(events: seq<Event<T>>) {
    forall i :: 0 <= i < |events| ==> !events[i].Mount?
  }

  /** After cleanup, and until the effect runs again, nothing is fetched and
      `data` never changes: results that were still in flight are dropped. */
  lemma {:induction false} CancelledStaysQuiet<T>(s: Poller<T>, events: seq<Event<T>>)
    requires !s.live && !s.intervalLive
    requires NoMount(events)
    ensures Run(s, events).data == s.data
    ensures Run(s, events).fetches == s.fetches
    ensures !Run(s, events).live
    decreases |events|
  {
    if events != [] {
      CancelledStaysQuiet(Step(s, events[0]), events[1..]);
    }
  }

  lemma CleanupDropsLateResults<T>(s: Poller<T>, events: seq<Event<T>>)
    requires NoMount(events)
    ensures Run(Step(s, Cleanup), events).data == s.data
    ensures Run(Step(s, Cleanup), events).fetches == s.fetches
  {
    CancelledStaysQuiet(Step(s, Cleanup), events);
  }

  /** The number of ticks in a trace. */
  function TickCount<T>(events: seq<Event<T>>): nat
    decreases |events|
  {
    if events == [] then 0 else (if events[0].Tick? then 1 else 0) + TickCount(events[1..])
  }

  /** Failed fetches never stop the polling: a live session stays live and
      keeps its interval through any number of failures and ticks, fetches
      once per tick, and its data only changes through results. */
  lemma {:induction false} FailuresKeepPolling<T>(s: Poller<T>, events: seq<Event<T>>)
    requires s.live && s.intervalLive
    requires forall i :: 0 <= i < |events| ==> events[i].Fail? || events[i].Tick?
    ensures Run(s, events).live && Run(s, events).intervalLive
    ensures Run(s, events).data == s.data
    ensures Run(s, events).fetches == s.fetches + TickCount(events)
    decreases |events|
  {
    if events != [] {
      FailuresKeepPolling(Step(s, events[0]), events[1..]);
    }
  }

  lemma {:induction false} RunAppend<T>(s: Poller<T>, a: seq<Event<T>>, b: seq<Event<T>>)
    ensures Run(s, a + b) == Run(Run(s, a), b)
    decreases |a|
  {
    if a == [] {
      assert a + b == b;
    } else {
      assert (a + b)[0] == a[0];
      assert (a + b)[1..] == a[1..] + b;
      RunAppend(Step(s, a[0]), a[1..], b);
    }
  }

  /** Answers: results or failures of fetches in flight. */
  predicate Answers<T>(events: seq<Event<T>>) {
    forall i :: 0 <= i < |events| ==> events[i].Response? || events[i].Fail?
  }

  /** Answers to fetches of earlier sessions change nothing but the queue:
      each settles the oldest fetch, and none of them reaches `data`. */
  lemma {:induction false} StaleAnswersDropped<T>(t: Poller<T>, answers: seq<Event<T>>)
    requires Answers(answers) && |answers| <= |t.inFlight|
    requires forall i :: 0 <= i < |answers| ==> t.inFlight[i] < t.session
    ensures Run(t, answers) == t.(inFlight := t.inFlight[|answers|..])
    decreases |answers|
  {
    if answers != [] {
      var u := Step(t, answers[0]);
      assert u == t.(inFlight := t.inFlight[1..]);
      forall i | 0 <= i < |answers[1..]| ensures u.inFlight[i] < u.session {
        assert u.inFlight[i] == t.inFlight[i + 1];
      }
      StaleAnswersDropped(u, answers[1..]);
      assert u.inFlight[|answers| - 1..] == t.inFlight[|answers|..];
    }
  }

  /** An active run fetches immediately, whatever was still in flight. The
      answers to the earlier sessions' fetches, arriving first, are dropped,
      and the answer to the new fetch is what `data` then shows. */
  lemma ActivationFetchesAndStores<T>(s: Poller<T>, stale: seq<Event<T>>, r: T)
    requires Valid(s)
    requires Answers(stale) && |stale| == |s.inFlight|
    ensures Step(s, Mount(true)).fetches == s.fetches + 1
    ensures Run(s, [Mount(true)] + stale).data == s.data
    ensures Run(s, [Mount(true)] + stale + [Response(r)]).data == Some(r)
  {
    var t := Step(s, Mount(true));
    assert t.inFlight == s.inFlight + [t.session];
    var m: seq<Event<T>> := [Mount(true)];
    assert Run(s, m) == t by {
      assert m[1..] == [];
    }
    RunAppend(s, [Mount(true)], stale);
    StaleAnswersDropped(t, stale);
    var u := Run(t, stale);
    assert u.inFlight == [t.session];
    RunAppend(s, [Mount(true)] + stale, [Response(r)]);
    assert Run(u, [Response(r)]) == Step(u, Response(r));
  }
}

=== FILE: task_group_polling.dfy ===
/** `useTaskGroupPolling` as a state machine. Each run of the effect is a
    session: a non-empty group id starts a 5-second interval whose ticks ask
    for the group's progress; every answer is reported, COMPLETE or a failed
    request stops the interval that issued it and clears `isActive`, and
    cleanup stops the session's interval.

    Time is discrete: `Tick` is the interval firing, `Response`/`Fail`
    answer the oldest request still in flight. Re-running the effect for a
    new group id runs the previous cleanup first, so `Mount` includes it. The
    hook keeps no cancellation flag, so an answer to a request of an earlier
    session is still acted on (see `StaleAnswerStillActs`). */
module TaskGroupPolling {
  import opened Common

  /** The progress service's answer: `completed`, `total` and `status`. */
  datatype GroupProgress = GroupProgress(completed: Option<int>, total: Option<int>, status: string)

  /** What `onProgressUpdate` receives. */
  datatype Progress = Progress(completed: int, total: int)

  /** A progress request: the session whose interval issued it and the group
      it asks about. */
  datatype Request = Request(session: nat, groupId: string)

  datatype Event =
    | Mount(groupId: Option<string>)
    | Tick
    | Response(answer: GroupProgress)
    | Fail
    | Cleanup

  /** The hook's state and what it has done so far: `isActive`, the current
      session and its group, whether that session's interval is running, the
      requests in flight (oldest first), every `onProgressUpdate` argument and
      the number of `onSuccess` calls. */
  datatype Poller = Poller(
    isActive: bool,
    session: nat,
    groupId: string,
    intervalLive: bool,
    inFlight: seq<Request>,
    reports: seq<Progress>,
    successCalls: nat)

  /** Before the first effect: `useState(false)`. */
  const Initial := Poller(false, 0, "", false, [], [], 0)

  /** `!groupId`: null and the empty string both count as no group. */
  predicate NoGroup(groupId: Option<string>) {
    groupId.None? || groupId.value == ""
  }

  /** `{ completed: response.completed || 0, total: response.total || 0 }`. */
  function ToProgress(a: GroupProgress): (p: Progress)
    ensures p.completed == a.completed.GetOr(0) && p.total == a.total.GetOr(0)
  {
    Progress(a.completed.GetOr(0), a.total.GetOr(0))
  }

  /** `clearInterval` on the interval of `session`: it stops the running
      interval only when that is the one being cleared. */
  function ClearInterval(s: Poller, session: nat): (t: Poller)
    ensures t.intervalLive == (s.intervalLive && session != s.session)
    ensures t.(intervalLive := s.intervalLive) == s
  {
    if session == s.session then s.(intervalLive := false) else s
  }

  /** One event. A null or empty group id leaves the hook inactive with no
      interval; a real one makes it active with a running interval but sends
      nothing yet, since the first request waits for the first tick. A tick
      of a running interval asks about the current group exactly once, and
      without one sends nothing. Every answer is reported, even when nothing
      changed, with missing counts as 0; COMPLETE also clears `isActive` and
      calls `onSuccess` once, and any other status changes nothing else. A
      failed request clears `isActive` without calling `onSuccess` or
      reporting. COMPLETE and failures stop the interval that sent the
      request, so an answer to an earlier session's request leaves the
      current interval running; cleanup stops the current one. */
  function Step(s: Poller, e: Event): (t: Poller)
    ensures e.Mount? ==>
      && t.isActive == !NoGroup(e.groupId) && t.intervalLive == !NoGroup(e.groupId)
      && t.inFlight == s.inFlight && t.reports == s.reports && t.successCalls == s.successCalls
      && (!NoGroup(e.groupId) ==> t.groupId == e.groupId.value)
    ensures e.Tick? ==>
      && (s.intervalLive ==> t.inFlight == s.inFlight + [Request(s.session, s.groupId)])
      && (!s.intervalLive ==> t == s)
      && t.isActive == s.isActive && t.reports == s.reports && t.successCalls == s.successCalls
    ensures e.Response? && s.inFlight != [] ==>
      && t.reports == s.reports + [Progress(e.answer.completed.GetOr(0), e.answer.total.GetOr(0))]
      && t.inFlight == s.inFlight[1..]
      && (e.answer.status == "COMPLETE" ==> !t.isActive && t.successCalls == s.successCalls + 1)
      && (e.answer.status == "COMPLETE" && s.inFlight[0].session == s.session ==> !t.intervalLive)
      && (e.answer.status != "COMPLETE" ==>
            t.isActive == s.isActive && t.intervalLive == s.intervalLive && t.successCalls == s.successCalls)
    ensures e.Fail? && s.inFlight != [] ==>
      && !t.isActive && t.successCalls == s.successCalls && t.reports == s.reports
      && t.inFlight == s.inFlight[1..]
      && (s.inFlight[0].session == s.session ==> !t.intervalLive)
    ensures (e.Response? || e.Fail?) && s.inFlight != [] && s.inFlight[0].session != s.session ==>
      t.intervalLive == s.intervalLive
    ensures (e.Response? || e.Fail?) && s.inFlight == [] ==> t == s
    ensures e.Cleanup? ==> !t.intervalLive && t.isActive == s.isActive && t.inFlight == s.inFlight
    ensures !e.Mount? ==> t.session == s.session && t.groupId == s.groupId
    ensures !e.Mount? && !s.intervalLive ==> !t.intervalLive && |t.inFlight| <= |s.inFlight|
  {
    match e
    case Mount(g) =>
      var t := s.(session := s.session + 1, intervalLive := false);
      if NoGroup(g) then t.(isActive := false)
      else t.(isActive := true, groupId := g.value, intervalLive := true)
    case Tick =>
      if s.intervalLive then s.(inFlight := s.inFlight + [Request(s.session, s.groupId)]) else s
    case Response(a) =>
      if s.inFlight == [] then s
      else
        var req := s.inFlight[0];
        var t := s.(inFlight := s.inFlight[1..], reports := s.reports + [ToProgress(a)]);
        if a.status == "COMPLETE" then
          ClearInterval(t, req.session).(isActive := false, successCalls := s.successCalls + 1)
        else t
    case Fail =>
      if s.inFlight == [] then s
      else
        var req := s.inFlight[0];
        ClearInterval(s.(inFlight := s.inFlight[1..]), req.session).(isActive := false)
    case Cleanup =>
      s.(intervalLive := false)
  }

  function Run(s: Poller, events: seq<Event>): Poller
    decreases |events|
  {
    if events == [] then s else Run(Step(s, events[0]), events[1..])
  }

  // ---------------------------------------------------------------------
  // Traces.

  predicate NoMount(events: seq<Event>) {
    forall i :: 0 <= i < |events| ==> !events[i].Mount?
  }

  /** Once the interval is stopped (cleanup, COMPLETE or a failure of the
      current session), no later event short of a new `Mount` sends another
      request or restarts it. */
  lemma {:induction false} StoppedStaysStopped(s: Poller, events: seq<Event>)
    requires !s.intervalLive
    requires NoMount(events)
    ensures !Run(s, events).intervalLive
    ensures |Run(s, events).inFlight| <= |s.inFlight|
    ensures Run(s, events).session == s.session
    decreases |events|
  {
    if events != [] {
      StoppedStaysStopped(Step(s, events[0]), events[1..]);
    }
  }

  /** After cleanup, ticks never reach the service. */
  lemma CleanupStopsTicks(s: Poller, events: seq<Event>)
    requires NoMount(events)
    ensures !Run(Step(s, Cleanup), events).intervalLive
    ensures |Run(Step(s, Cleanup), events).inFlight| <= |s.inFlight|
  {
    StoppedStaysStopped(Step(s, Cleanup), events);
  }

  /** Mounting a real group and letting `n` ticks fire sends exactly `n`
      requests, all for that group, and reports nothing until an answer. */
  lemma {:induction false} TicksSendRequests(s: Poller, n: nat)
    requires s.intervalLive
    ensures var t := Run(s, seq(n, _ => Tick));
      && t.inFlight == s.inFlight + seq(n, _ => Request(s.session, s.groupId))
      && t.reports == s.reports && t.isActive == s.isActive && t.intervalLive
    decreases n
  {
    var ticks := seq(n, _ => Tick);
    if n > 0 {
      var s' := Step(s, Tick);
      assert ticks[1..] == seq(n - 1, _ => Tick);
      TicksSendRequests(s', n - 1);
      assert [Request(s.session, s.groupId)] + seq(n - 1, _ => Request(s.session, s.groupId))
             == seq(n, _ => Request(s.session, s.groupId));
    }
  }

  /** The hook has no stale-answer guard: after switching to another group,
      a COMPLETE answer to a request of the earlier group still reports its
      progress, clears `isActive` and calls `onSuccess`, while the new
      group's interval keeps running. */
  lemma StaleAnswerStillActs(g1: string, g2: string, a: GroupProgress)
    requires g1 != "" && g2 != "" && a.status == "COMPLETE"
    ensures var t := Run(Initial, [Mount(Some(g1)), Tick, Mount(Some(g2)), Response(a)]);
      && t.reports == [ToProgress(a)]
      && t.successCalls == 1
      && !t.isActive
      && t.intervalLive
      && t.groupId == g2
  {
    var e := [Mount(Some(g1)), Tick, Mount(Some(g2)), Response(a)];
    var s1 := Step(Initial, Mount(Some(g1)));
    var s2 := Step(s1, Tick);
    var s3 := Step(s2, Mount(Some(g2)));
    var s4 := Step(s3, Response(a));
    assert s2.inFlight == [Request(1, g1)];
    assert s3.session == 2;
    assert Run(Initial, e) == Run(s1, e[1..]);
    assert e[1..][1..] == [Mount(Some(g2)), Response(a)];
    assert Run(s1, e[1..]) == Run(s2, [Mount(Some(g2)), Response(a)]);
    assert Run(s2, [Mount(Some(g2)), Response(a)]) == Run(s3, [Response(a)]);
    assert Run(s3, [Response(a)]) == s4;
  }

  /** Across any trace, group changes included, `onSuccess` is called at
      most once per COMPLETE answer and progress is reported once per
      answer: the counts only grow with answers. */
  lemma {:induction false} ReportsCountAnswers(s: Poller, events: seq<Event>)
    ensures |Run(s, events).reports| - |s.reports| <= |events|
    ensures Run(s, events).successCalls - s.successCalls <= |Run(s, events).reports| - |s.reports|
    ensures Run(s, events).successCalls >= s.successCalls && |Run(s, events).reports| >= |s.reports|
    decreases |events|
  {
    if events != [] {
      ReportsCountAnswers(Step(s, events[0]), events[1..]);
    }
  }
}
